=== FILE: README.md ===
# laravel-vite-plugin, modelled in Dafny

This project models the Laravel plugin for Vite. It covers two parts.

**The plugin** (src/index.ts):
- `resolvePluginConfig` turns the argument of `laravel(...)` into a record with every option filled in.
- The `config` hook maps that record to the fragment Vite merges under the user's own configuration. The inputs are the command, the environment map, the Sail flag and the user's configuration. The fragment covers base, `publicDir`, the build block, the server block with the Sail and Valet/environment overlays, aliases and `ssr.noExternal`.
- `resolveFullReloadConfig` turns the polymorphic `refresh` option into watch records.
- `ensureCommandShouldRunInEnvironment` guards the dev server against managed environments.
- `resolveDevServerUrl` builds the dev-server URL.
- The serve-only `transform` replaces `__laravel_vite_placeholder__` with that URL.
- The once-only exit-handler flag.

**The asset scripts** (bin/clean.js, bin/clear-orphaned-assets.js, bin/purge-orphaned-assets.js):
- argv parsing
- default manifest and assets paths
- SSR-manifest detection and, for clear and purge, the SSR-mismatch exit
- asset extraction
- orphan selection
- the dry-run and delete decision
- quiet mode
- the messages the scripts write

One `Script` value selects between the three scripts.

The rule throughout the hook is that a value the user set wins. `ConfigHook.UserValuesWin` states this for every key the fragment sets: the scalar keys, the fields of a user `hmr` or `https` object, the user's aliases and the user's `noExternal` patterns.

Modules follow the source:

| file | module | contents |
|---|---|---|
| optional.dfy | `Optional` | `Option` (JavaScript `??` is `OrElse`) and `Result` |
| strings.dfy | `Strings` | `trim`, the slash-stripping regular expressions, decimal rendering, global literal `replace` |
| posix_path.dfy | `PosixPath` | Node's POSIX `dirname`, and a separator join |
| plugin_config.dfy | `PluginConfig` | the plugin options and `resolvePluginConfig` |
| full_reload.dfy | `FullReload` | `resolveFullReloadConfig` |
| config_hook.dfy | `ConfigHook` | the `config` hook and its helpers |
| dev_server.dfy | `DevServer` | `resolveDevServerUrl`, `isIpv6`, `transform`, the exit-handler flag |
| argv.dfy | `Argv` | `argument` and `option` |
| orphaned_assets.dfy | `OrphanedAssets` | the three scripts |

Some behaviours of the code are easy to misread; the model follows the code:
- Array-form aliases always gain an `@` entry at the end, even when the user already has one. Record-form aliases keep the user's `@`.
- `publicDirectory` loses only its leading slashes, after trimming. Trailing slashes are stripped only from `buildDirectory` and `ssrOutputDirectory`.
- A bare string is wrapped as `{ input, ssr }` without any check of its value. So `laravel('')` resolves, with an empty entry point.
- The plugin's tests expect the SSR output directory to default to `storage/framework/ssr`. The code's default is `bootstrap/ssr`.
- `isIpv6` accepts the address family as the string `'IPv6'` or as the number `6`, which some Node releases report. Both are bracketed (`DevServer.Ipv6AddressBracketed`).

## Model

| member | source | states |
|---|---|---|
| Strings.Trim | src/index.ts:305 | the trimmed text has no whitespace at either end, and every character cut off around it is ECMAScript whitespace |
| Strings.TrimIdle | src/index.ts:313 | trimming a string that neither starts nor ends with whitespace gives it back |
| Strings.StripLeadingSlashes | src/index.ts:305 | `replace(/^\/+/, '')` leaves a suffix of the input that does not start with `/`, and everything removed was `/` |
| Strings.StripSlashes | src/index.ts:313 | stripping leading and trailing slashes leaves a slice of the input with no `/` at either end, and everything cut off around it was `/` |
| Strings.NatToString | src/index.ts:416 | a port renders as a non-empty string of decimal digits with no leading zero except for `0` itself |
| Strings.ParseNatToString | src/index.ts:416 | reading the rendered port back as decimal gives the number |
| Strings.NatToStringInjective | src/index.ts:416 | distinct ports render differently |
| Strings.ReplaceAllFree | src/index.ts:184 | code without the token comes back from the global replace unchanged |
| Strings.ReplaceAllLeftmost | src/index.ts:184 | the global replace copies the text before the leftmost token, substitutes that token, and resumes right after it |
| PosixPath.DirnameOfChild | bin/clean.js:34 | `dirname(dir + '/' + name)` is `dir` when `name` is one segment and `dir` has no trailing `/` |
| PosixPath.Join | src/index.ts:367 | the join is the first part, one `/`, then the second part, and for a single-segment second part after a first part without a trailing `/` its dirname is the first part |
| PluginConfig.NormalizePublicDirectory | src/index.ts:304-310 | the public directory is the trimmed value minus only its leading slashes: a suffix of it that does not start with `/` |
| PluginConfig.NormalizeDirectory | src/index.ts:312-322 | build and SSR output directories are the trimmed value with leading and trailing slashes cut off, nothing else removed |
| PluginConfig.ExpandRefresh | src/index.ts:324-326 | `refresh: true` never survives resolution; any other value is kept, and an absent one becomes `false` |
| PluginConfig.ResolvePluginConfig | src/index.ts:291-339 | an absent configuration fails with "missing configuration"; shorthand input sets both `input` and `ssr`; a missing `input`, an empty public directory and an empty build directory each fail with their own error, in that order; every success is well formed |
| PluginConfig.ResolveOptions | src/index.ts:300-339 | the options branch never reports a missing configuration; its results have non-empty public and build directories, no leading `/` on either, no trailing `/` on the build directory, an SSR output directory that may be empty but otherwise has no `/` at either end, and no `refresh: true` |
| PluginConfig.NormalizeIdle | src/index.ts:304-322 | a directory with no surrounding whitespace or slashes is kept exactly as written |
| PluginConfig.ResolveFillsDefaults | src/index.ts:299-338 | options with an entry and non-empty normalised directories resolve, and each option the user gave survives resolution, and each absent one takes its default: `public`, `build`, `ssr` = `input`, `bootstrap/ssr`, `hotFile` = `<public>/hot`, `refresh` false, `valetTls` false, the identity transform |
| PluginConfig.Message | src/index.ts:293-316 | every configuration error is thrown with the package prefix `laravel-vite-plugin: ` |
| PluginConfig.ResolveShorthand | src/index.ts:296-298 | any bare string or list resolves with every default and with `input` and `ssr` equal to it |
| PluginConfig.EmptySsrOutputDirectoryAccepted | src/index.ts:320-322 | an SSR output directory that normalises to the empty string is accepted and kept empty |
| FullReload.ResolveFullReloadConfig | src/index.ts:370-396 | the records watch exactly the paths the user named; there are none for a boolean or an empty list; a single record becomes a one-record list with its options, a list of records is kept as given, a path becomes one record of that path, and a non-empty path list becomes one record of those paths in order; records built from plain paths carry no options |
| FullReload.RefreshTrueWatchesDefaults | src/index.ts:324-326 | `refresh: true` yields one record over the five default watch paths |
| ConfigHook.ResolveBase | src/index.ts:344-346 | the build base starts with the asset URL, ends with `/<buildDirectory>/`, and adds a separator only when the asset URL lacks one |
| ConfigHook.ResolveInput | src/index.ts:351-357 | SSR builds take the SSR entries, client builds the input entries |
| ConfigHook.ResolveOutDir | src/index.ts:362-368 | SSR builds write to the SSR output directory; client builds write to the public directory joined with the build directory by one `/`, so that for a single-segment build directory the dirname is the public directory |
| ConfigHook.Base | src/index.ts:131 | the user's base wins; otherwise it is empty while serving, and while building it is `resolveBase`'s value: the asset URL followed by `/<buildDirectory>/` |
| ConfigHook.BuildBlock | src/index.ts:133-140 | each build key is the user's value when set, else `!ssr` (`ConfigHook.IsSsrBuild`, `!!build.ssr`) for the manifest, the resolved out dir and input, and 0 for the inline limit |
| ConfigHook.MergeAliases | src/index.ts:161-172 | a user alias list is kept as a prefix and gains exactly one `@ → /resources/js` entry; a user alias record keeps every user key and value and gains `@` only when missing |
| ConfigHook.NoExternalInertiaHelpers | src/index.ts:433-451 | `true` stays `true` and only `true` gives `true`; otherwise the user's patterns come first, in order, followed by `laravel-vite-plugin` |
| ConfigHook.EnsureCommandShouldRunInEnvironment | src/index.ts:242-262 | no error while building, with the bypass, or with no marker variable; otherwise the reported guard's variable is defined and no higher-priority one is |
| ConfigHook.GuardMessage | src/index.ts:248-260 | each guard's error names the HMR server and ends by naming `LARAVEL_BYPASS_ENV_CHECK=1` as the way to disable the check |
| ConfigHook.ResolveValetHost | src/index.ts:532-542 | the Valet host exists iff Valet's configuration file does, and is the directory name under Valet's TLD |
| ConfigHook.ResolveValetServerConfig | src/index.ts:501-527 | Valet yields settings unless `valetTls` is false; the host is the explicit one, else `<directory>.<tld>`; for an explicit host it succeeds iff both certificate files exist, and for `true` iff Valet's configuration and both files for the derived host exist; the settings are that host with `key` and `cert` naming `~/.config/valet/Certificates/<host>.key` and `.crt`; a missing Valet configuration under `true` fails with the configuration error, and every other failure is the certificate error naming that host |
| ConfigHook.ResolveEnvironmentServerConfig | src/index.ts:456-484 | no settings iff neither certificate variable is truthy; a certificate error iff one is but a file is missing, reporting both variables' texts; a host error iff both files exist but `APP_URL` is absent or yields no or an empty host; a success has both files, `key` and `cert` from `VITE_DEV_SERVER_KEY` and `VITE_DEV_SERVER_CERT`, and the host parsed from `APP_URL` |
| ConfigHook.ResolveServerConfig | src/index.ts:124-126 | nothing while building; while serving, Valet's result unless it gives nothing, then the environment's |
| ConfigHook.MergeHmr | src/index.ts:150-153 | object spread: each HMR key comes from the overriding object when present, else from the base |
| ConfigHook.HmrOverlay | src/index.ts:150-153 | an explicit `hmr: false` and only that gives `false`; `true` or absent gives the server's HMR host; an object is merged over it: the user's `protocol`, `port`, `clientPort` and `path` are kept, and its `host` wins over the server's |
| ConfigHook.HttpsOverlay | src/index.ts:154-157 | an explicit `https: false` and only that gives `false`; otherwise the server's key and certificate, with a user object's keys overriding |
| ConfigHook.ServerBlock | src/index.ts:141-159 | origin is the user's or the placeholder; Sail adds host `0.0.0.0`, port 5173 or `VITE_PORT`, and `strictPort`, under user values, and without Sail there is no port or `strictPort`; Valet or environment settings add host, `hmr` and `https`, and only they do; under Sail or such settings a host is always written, the user's when set |
| ConfigHook.Config | src/index.ts:119-178 | server settings are resolved first and their error wins; then a guard that fires fails the hook with that guard; building always succeeds; a success's fields are the blocks above |
| ConfigHook.ConfigUserValuesWin | src/index.ts:130-177 | the fragment never overrides a value the user set: every user key either survives or is left unset, the fields of a user `hmr` or `https` object survive, user alias and `noExternal` lists stay prefixes, and a single user `noExternal` pattern comes first |
| ConfigHook.BuildIgnoresServerSettings | src/index.ts:124-128 | building always succeeds and carries no `hmr`, no `https`, and, outside Sail, no host |
| ConfigHook.ResolveBaseExamples | src/index.ts:344-346 | with build directory `build`, an empty asset URL gives `/build/`, and `http://example.com` with or without a trailing slash gives `http://example.com/build/` |
| ConfigHook.ResolvedExampleDirectories | src/index.ts:304-322 | `public/test` and `/build/test/` resolve to `public/test` and `build/test`, with the default SSR directory |
| ConfigHook.FullConfigurationResolves | tests/index.test.ts:47-56 | the full configuration of the plugin's own test (`other-public`, `other-build`, `other-ssr-output`, an SSR entry) resolves with every value kept |
| ConfigHook.FullConfigurationBuilds | tests/index.test.ts:57-68 | with no user base or build output, that configuration builds the client into `other-public/other-build` with a manifest and SSR into `other-ssr-output` without one, both under base `/other-build/` |
| ConfigHook.OutDirOfResolvedOptions | src/index.ts:362-368 | those options build into `public/test/build/test` with base `/build/test/`, and SSR into `bootstrap/ssr` |
| DevServer.UrlProtocol | src/index.ts:402-405 | `https` iff the HMR protocol is non-empty and `wss`, or it is empty or absent and `server.https` is truthy |
| DevServer.UrlHost | src/index.ts:407-425 | the host is the HMR host, else `localhost` under Sail without a user host, else a string `server.host`, else the bound address, bracketed when its family is `'IPv6'` or the number 6 |
| DevServer.UrlPort | src/index.ts:413-414 | the port is the HMR client port, else the bound port |
| DevServer.ResolveDevServerUrl | src/index.ts:401-417 | the URL is `<protocol>://<host>:<port>` with the port in canonical decimal, and it parses back into exactly the scheme, host and port above |
| DevServer.UrlRoundTrip | src/index.ts:416 | `proto://host:port` splits back into its parts even when the host holds `:` |
| DevServer.Ipv6AddressBracketed | src/index.ts:419-425 | without an HMR or string host, an address of family `'IPv6'` or numeric family 6 appears in brackets in the URL, and an address of any other family appears as it is (`isIpv6` is `DevServer.IsIpv6`) |
| DevServer.TransformCode | src/index.ts:182-188 | the hook returns code while serving and nothing while building; the code it returns is the user's `transformOnServe` applied to the text with every placeholder replaced by the URL (see the two lemmas below for what the replacement does) |
| DevServer.TransformLeavesPlainCode | src/index.ts:182-188 | with the default `transformOnServe`, served code without the placeholder is unchanged |
| DevServer.TransformInsertsUrl | src/index.ts:184-186 | with the default `transformOnServe`, the first placeholder becomes the URL and the text before it is kept |
| DevServer.ConfigureServer | src/index.ts:209-222 | the first call subscribes to `exit`, `SIGINT`, `SIGTERM`, `SIGHUP` and sets the flag; later calls change nothing |
| DevServer.ExitHandlersBoundOnce | src/index.ts:209-222 | after any positive number of `configureServer` calls each event has exactly one handler |
| Argv.FindPrefixed | bin/clean.js:11 | the index found is the first entry with the prefix, or -1 when there is none |
| Argv.Argument | bin/clean.js:10-16 | the fallback when no entry starts with `--name=`, otherwise the text after the prefix in the first entry that does |
| Argv.ArgumentFirstWins | bin/clear-orphaned-assets.js:10-16 | the first `--name=value` wins over later ones and over the fallback |
| Argv.FlagAndValueDistinct | bin/purge-orphaned-assets.js:18 | `--name=x` does not set the flag `--name`, and a bare `--name` carries no value |
| OrphanedAssets.DefaultManifest | bin/clean.js:27-33 | without `--ssr` the client manifest; with it, clear and purge use the SSR manifest, and clean uses it iff it exists |
| OrphanedAssets.ReadSettings | bin/clear-orphaned-assets.js:24-28 | the flags are exact argv entries (`option`, modelled by `Argv.HasOption`); the manifest and assets paths are the arguments' values, else the defaults |
| OrphanedAssets.DefaultAssetsDirectories | bin/purge-orphaned-assets.js:28 | the default assets directories are `./public/build/assets` and `./bootstrap/ssr/assets` |
| OrphanedAssets.SsrAssets | bin/clean.js:59 | for a manifest of lists, the SSR assets are exactly the items of all lists |
| OrphanedAssets.SsrAssetsAppend | bin/clean.js:59 | the flattening is the concatenation of the entries' contributions in key order |
| OrphanedAssets.SsrAssetsOfList | bin/clean.js:59 | a list entry contributes exactly its items, in order |
| OrphanedAssets.ClientAssets | bin/clean.js:60 | one asset per entry, the chunk's `file`; a `null` entry throws |
| OrphanedAssets.ManifestAssets | bin/clear-orphaned-assets.js:59-61 | an SSR manifest (first value a list) yields the values flattened one level; any other manifest yields each entry's `file`; only a `null` entry of a client manifest stops it |
| OrphanedAssets.FindAsset | bin/clean.js:67 | when the scan completes, it reports a match iff some asset ends with `/<name>`; with string assets it always completes |
| OrphanedAssets.Orphans | bin/clean.js:66-67 | the orphans are exactly the listed regular files no asset names, in listing order; with string assets the scan never throws |
| OrphanedAssets.NoFilesNoOrphans | bin/clear-orphaned-assets.js:67 | a listing without regular files has no orphans, whatever the manifest holds |
| OrphanedAssets.CountMessage | bin/purge-orphaned-assets.js:73-75 | the count line shows the number, ends `asset found.` iff there is exactly one orphan, and `assets found.` otherwise |
| OrphanedAssets.Emit | bin/clear-orphaned-assets.js:33-34 | under `--quiet` nothing is written |
| OrphanedAssets.PathsOf | bin/clean.js:77 | each orphan's path is the assets directory, `/`, and its name |
| OrphanedAssets.OrphanLines | bin/clean.js:76-86 | unless quiet, line i is `Orphaned asset [<dir>/<name>] would be removed.` under `--dry-run` and `Removing orphaned asset [<dir>/<name>].` otherwise, for the i-th orphan in directory order |
| OrphanedAssets.Report | bin/clean.js:69-87 | no orphans gives the "No ophaned assets found." line; otherwise the count line followed by exactly the per-orphan lines |
| OrphanedAssets.Scan | bin/clear-orphaned-assets.js:47-88 | quiet adds no lines; dry-run deletes nothing; only clear or purge with `--ssr` and a client manifest exit, with status 1; nothing is deleted unless the run completes |
| OrphanedAssets.Run | bin/purge-orphaned-assets.js:40-89 | `--quiet` writes nothing, `--dry-run` deletes nothing, an exit is status 1 from the SSR mismatch of clear or purge only, and nothing is deleted unless the run completes |
| OrphanedAssets.CompletedRunDeletes | bin/clean.js:76-86 | a completed run deletes the orphans' paths in order, or nothing under `--dry-run` |
| OrphanedAssets.DeletesExactlyOrphans | bin/clear-orphaned-assets.js:67-87 | without `--dry-run`, a listed entry's path is deleted iff the entry is an orphan |
| OrphanedAssets.DeletedPathsAreOrphans | bin/clean.js:66-86 | in a listing with distinct names, an entry's path is among the orphans' paths iff the entry is an orphan |
| OrphanedAssets.DeletesEachOnce | bin/purge-orphaned-assets.js:77-87 | no path is unlinked twice |
| OrphanedAssets.SsrMismatchExits | bin/clear-orphaned-assets.js:49-53 | `--ssr` with a client manifest exits with status 1 before listing or deleting, and the mismatch message is the last line |
| OrphanedAssets.CompletesWhenInputsAreWellFormed | bin/clean.js:45-88 | a readable manifest with string assets and an existing directory always completes, when the SSR check does not stop clear or purge |
| OrphanedAssets.ClientManifestAssetsAreFiles | bin/clean.js:60 | for chunks with string `file` fields, a name is referenced iff some chunk's file ends with `/<name>` |

## Left out

- Filesystem access is replaced by inputs:
  - the hot-file write on `listening` and its removal on exit
  - reading the certificates, Valet's configuration, `composer.lock` and `package.json`
  - `readFileSync`, `readdirSync` and `unlinkSync` in the scripts, modelled as a map of parsed files and a map of directory listings
- Unlinking is assumed to succeed.
- JSON parsing is not modelled. A manifest file is already parsed, and its entries are given in `Object.keys` order, so the integer-key ordering is not modelled either.
- Vite's `loadEnv` is replaced by the environment as a string map. `process.env.LARAVEL_SAIL` is a separate boolean.
- `new URL(APP_URL).host` is a function parameter.
- `parseInt(VITE_PORT)` is left abstract. `ParsedPort` records the text it is applied to.
- `os.homedir()` and `path.basename(process.cwd())` are fields of the `Machine` input.
- `resolvePluginConfig` normalises the caller's options object in place. The model is pure, so resolving the same object twice is not modelled; normalisation is not idempotent (as a build directory, `"/ x /"` becomes `" x "` and then `"x"`).
- ConfigHook.MergeAliases: a record-form alias is a map, so the key order of `{ ...defaultAliases, ...userAlias }`, with `@` first, is not modelled.
- PosixPath.Join: `path.join` and `path.resolve` are a plain separator join. Collapsing of `..`, `.` and repeated separators is not modelled, so a public directory that ends in `/` joins with a doubled separator where Node would collapse it.
- ConfigHook.MergeHmr: a user object key that is explicitly `undefined` is treated as absent. JavaScript's spread would copy the `undefined`.
- DevServer.TransformCode: `$`-sequences in the replacement are treated literally, although `String.replace` would interpret them. The URL of a dev server does not normally contain them.
- DevServer.TransformCode: the URL is the caller's string. Before the server listens, JavaScript would insert the text `undefined`; the caller passes that text.
- The `setTimeout` banner, the colours, `laravelVersion` and `pluginVersion` are runtime output.
- The signal handlers' effect, and the 404 middleware for `/index.html`, are runtime behaviour.
- Only the records of `resolveFullReloadConfig` are modelled. Constructing the `vite-plugin-full-reload` plugin, and the `__laravel_plugin_config` tag on it, are foreign calls.
- `configResolved` only stores the resolved configuration. `DevServer.ResolvedServer` stands in for the part of it that is read.
- src/inertia-helpers/index.ts (promise resolution of page components) is not part of this model.
- Build tooling (tsup) is not part of this model.

=== FILE: argv.dfy ===
/** The two command-line helpers shared by the asset scripts: `argument`,
    which reads `--name=value`, and `option`, which tests for a bare
    `--name` flag. */
module Argv {
  import opened Strings

  /** `--name=` */
  function ValuePrefix(name: string): string {
    "--" + name + "="
  }

  /** `--name` */
  function Flag(name: string): string {
    "--" + name
  }

  /** `argv.findIndex(a => a.startsWith(prefix))`, searching from `from`. */
  function FindPrefixed(argv: seq<string>, prefix: string, from: nat): (i: int)
    requires from <= |argv|
    ensures i == -1 || from <= i < |argv|
    ensures i != -1 ==> StartsWith(argv[i], prefix)
    ensures forall j :: from <= j < |argv| && (i == -1 || j < i) ==> !StartsWith(argv[j], prefix)
    decreases |argv| - from
  {
    if from == |argv| then -1
    else if StartsWith(argv[from], prefix) then from
    else FindPrefixed(argv, prefix, from + 1)
  }

  /** `argument(name, fallback)`: the text after `--name=` in the first entry
      carrying that prefix, else the fallback. */
  function Argument(argv: seq<string>, name: string, fallback: string): (r: string)
    ensures (forall j :: 0 <= j < |argv| ==> !StartsWith(argv[j], ValuePrefix(name))) ==> r == fallback
    ensures (exists j :: 0 <= j < |argv| && StartsWith(argv[j], ValuePrefix(name))) ==>
              exists k :: && 0 <= k < |argv|
                          && argv[k] == ValuePrefix(name) + r
                          && forall j :: 0 <= j < k ==> !StartsWith(argv[j], ValuePrefix(name))
  {
    var prefix := ValuePrefix(name);
    var i := FindPrefixed(argv, prefix, 0);
    if i == -1 then fallback
    else
      var r := argv[i][|prefix|..];
      assert argv[i] == prefix + r;
      r
  }

  /** `option(name)`: the bare flag is one of the arguments. */
  predicate HasOption(argv: seq<string>, name: string) {
    Flag(name) in argv
  }

  /** The first `--name=value` wins over later ones and over the fallback. */
  lemma ArgumentFirstWins(before: seq<string>, name: string, value: string, after: seq<string>, fallback: string)
    requires forall j :: 0 <= j < |before| ==> !StartsWith(before[j], ValuePrefix(name))
    ensures Argument(before + [ValuePrefix(name) + value] + after, name, fallback) == value
  {
    var argv := before + [ValuePrefix(name) + value] + after;
    assert StartsWith(argv[|before|], ValuePrefix(name));
    var r := Argument(argv, name, fallback);
    var k :| && 0 <= k < |argv|
             && argv[k] == ValuePrefix(name) + r
             && forall j :: 0 <= j < k ==> !StartsWith(argv[j], ValuePrefix(name));
    if k < |before| {
      assert argv[k] == before[k];
      assert StartsWith(argv[k], ValuePrefix(name));
    }
    assert k == |before|;
  }

  /** A value and a flag do not stand in for each other: `--name=x` does
      not set the flag and a bare `--name` carries no value. */
  lemma FlagAndValueDistinct(name: string, value: string, fallback: string)
    ensures !HasOption([ValuePrefix(name) + value], name)
    ensures Argument([Flag(name)], name, fallback) == fallback
  {
    assert |ValuePrefix(name) + value| > |Flag(name)|;
    assert !StartsWith(Flag(name), ValuePrefix(name));
  }
}

=== FILE: config_hook.dfy ===
/** The plugin's `config` hook: the resolved plugin options, the command,
    the environment and the user's own Vite configuration mapped to the
    configuration fragment Vite merges under the user's. The rule throughout
    is that a value the user set wins. */
module ConfigHook {
  import opened Optional
  import opened Strings
  import opened PluginConfig
  import PosixPath

  datatype Command = Build | Serve

  /** `publicDir: string|false` */
  datatype PublicDir = PublicDirOff | PublicDirPath(path: string)

  /** `build.ssr: boolean|string` */
  datatype SsrOption = SsrFlag(on: bool) | SsrEntry(entry: string)

  /** `build.manifest: boolean|string` */
  datatype ManifestOption = ManifestFlag(on: bool) | ManifestFile(name: string)

  /** `build.rollupOptions.input: string|string[]|Record<string, string>` */
  datatype RollupInput = RollupEntries(entries: Entries) | RollupNamed(named: map<string, string>)

  /** `server.host: string|boolean` */
  datatype HostOption = HostName(name: string) | HostFlag(on: bool)

  /** The fields of an HMR options object the plugin reads or writes. */
  datatype HmrOptions = HmrOptions(
    protocol: Option<string>,
    host: Option<string>,
    port: Option<nat>,
    clientPort: Option<nat>,
    path: Option<string>)

  /** `server.hmr: boolean|object` */
  datatype HmrOption = HmrFlag(on: bool) | HmrObject(options: HmrOptions)

  /** `server.https: boolean|object`; an object is a key/value record
      (`key`, `cert`, ...). */
  datatype HttpsOption = HttpsFlag(on: bool) | HttpsObject(fields: map<string, string>)

  /** `{ find, replacement }` */
  datatype AliasEntry = AliasEntry(find: string, replacement: string)

  /** `resolve.alias`: a list of entries or a record. */
  datatype Alias = AliasList(entries: seq<AliasEntry>) | AliasMap(mapping: map<string, string>)

  /** One `ssr.noExternal` pattern: a package name or a regular expression. */
  datatype Pattern = PackageName(name: string) | PatternRegExp(source: string)

  /** `ssr.noExternal: true|string|RegExp|(string|RegExp)[]` */
  datatype NoExternal = NoExternalAll | NoExternalOne(pattern: Pattern) | NoExternalList(patterns: seq<Pattern>)

  /** The parts of the user's Vite configuration the hook reads; `None` is an
      absent key (an absent `build` or `server` block has every key absent). */
  datatype UserBuild = UserBuild(
    ssr: Option<SsrOption>,
    manifest: Option<ManifestOption>,
    outDir: Option<string>,
    input: Option<RollupInput>,
    assetsInlineLimit: Option<int>)

  datatype UserServer = UserServer(
    origin: Option<string>,
    host: Option<HostOption>,
    port: Option<nat>,
    strictPort: Option<bool>,
    hmr: Option<HmrOption>,
    https: Option<HttpsOption>)

  datatype UserConfig = UserConfig(
    base: Option<string>,
    publicDir: Option<PublicDir>,
    build: UserBuild,
    server: UserServer,
    alias: Option<Alias>,
    noExternal: Option<NoExternal>)

  /** A port in the fragment: a number, or `parseInt` of an environment value
      (the parse itself is not modelled). */
  datatype PortValue = PortNumber(n: nat) | ParsedPort(text: string)

  datatype BuildFragment = BuildFragment(
    manifest: ManifestOption,
    outDir: string,
    input: RollupInput,
    assetsInlineLimit: int)

  /** `None` fields are keys the fragment does not set. */
  datatype ServerFragment = ServerFragment(
    origin: string,
    host: Option<HostOption>,
    port: Option<PortValue>,
    strictPort: Option<bool>,
    hmr: Option<HmrOption>,
    https: Option<HttpsOption>)

  datatype ConfigFragment = ConfigFragment(
    base: string,
    publicDir: PublicDir,
    build: BuildFragment,
    server: ServerFragment,
    alias: Alias,
    noExternal: NoExternal)

  /** The dev-server settings derived from Valet or from the environment:
      `{ hmr: { host }, host, https: { key, cert } }`. The `https` record maps
      `key` and `cert` to the files whose contents Vite is given. */
  datatype ServerConfig = ServerConfig(host: string, https: map<string, string>)

  /** What the hook may consult on the machine: the home directory, the name
      of the working directory, the files that exist, and the `tld` of
      Valet's configuration file. */
  datatype Machine = Machine(home: string, cwdName: string, files: set<string>, valetTld: string)

  /** The invocation: the command, the environment loaded for the mode,
      whether `LARAVEL_SAIL` is set in the process environment, the machine,
      and the host part of a URL as `new URL(...).host` computes it. */
  datatype Invocation = Invocation(
    command: Command,
    env: map<string, string>,
    sail: bool,
    machine: Machine,
    urlHost: string -> Option<string>)

  const Placeholder := "__laravel_vite_placeholder__"
  const PluginPackage := "laravel-vite-plugin"
  const SailHost := "0.0.0.0"
  const SailPort: nat := 5173

  /** A JavaScript value is truthy; for an environment entry, set and non-empty. */
  predicate EnvTruthy(env: map<string, string>, name: string) {
    name in env && env[name] != ""
  }

  /** `env.NAME`, with `undefined` rendered as a template literal renders it. */
  function EnvText(env: map<string, string>, name: string): string {
    if name in env then env[name] else "undefined"
  }

  /** `!!userConfig.build?.ssr` */
  predicate IsSsrBuild(ssr: Option<SsrOption>) {
    ssr.Some? && (ssr.value == SsrFlag(true) || (ssr.value.SsrEntry? && ssr.value.entry != ""))
  }

  // ---------------------------------------------------------------------
  // Build fields

  /** `resolveBase`: the asset URL, one separator, the build directory and a
      trailing separator. */
  function ResolveBase(plugin: ResolvedPluginConfig, assetUrl: string): (r: string)
    ensures StartsWith(r, assetUrl)
    ensures EndsWith(r, "/" + plugin.buildDirectory + "/")
    ensures |r| == |assetUrl| + |plugin.buildDirectory| + (if EndsWith(assetUrl, "/") then 1 else 2)
  {
    var sep := if EndsWith(assetUrl, "/") then "" else "/";
    var r := assetUrl + sep + plugin.buildDirectory + "/";
    assert r[..|assetUrl|] == assetUrl;
    assert EndsWith(assetUrl, "/") ==> r[|r| - |plugin.buildDirectory| - 2..] == assetUrl[|assetUrl| - 1..] + plugin.buildDirectory + "/";
    r
  }

  /** `resolveInput` */
  function ResolveInput(plugin: ResolvedPluginConfig, ssr: bool): (r: Entries)
    ensures ssr ==> r == plugin.ssr
    ensures !ssr ==> r == plugin.input
  {
    if ssr then plugin.ssr else plugin.input
  }

  /** `resolveOutDir` */
  function ResolveOutDir(plugin: ResolvedPluginConfig, ssr: bool): (r: string)
    ensures ssr ==> r == plugin.ssrOutputDirectory
    ensures !ssr ==> r == plugin.publicDirectory + "/" + plugin.buildDirectory
    ensures !ssr ==> StartsWith(r, plugin.publicDirectory + "/") && EndsWith(r, "/" + plugin.buildDirectory)
    ensures (&& !ssr
             && |plugin.publicDirectory| > 0 && plugin.publicDirectory[|plugin.publicDirectory| - 1] != '/'
             && |plugin.buildDirectory| > 0 && forall j :: 0 <= j < |plugin.buildDirectory| ==> plugin.buildDirectory[j] != '/')
            ==> PosixPath.Dirname(r) == plugin.publicDirectory
  {
    if ssr then plugin.ssrOutputDirectory
    else
      var r := PosixPath.Join(plugin.publicDirectory, plugin.buildDirectory);
      assert r[..|plugin.publicDirectory| + 1] == plugin.publicDirectory + "/";
      assert r[|r| - |plugin.buildDirectory| - 1..] == "/" + plugin.buildDirectory;
      r
  }

  /** The `base` field: the user's value, else the build base or `''`. */
  function Base(user: UserConfig, command: Command, plugin: ResolvedPluginConfig, assetUrl: string): (r: string)
    ensures user.base.Some? ==> r == user.base.value
    ensures user.base.None? && command == Serve ==> r == ""
    ensures user.base.None? && command == Build ==> r == ResolveBase(plugin, assetUrl)
    ensures user.base.None? && command == Build ==>
              StartsWith(r, assetUrl) && EndsWith(r, "/" + plugin.buildDirectory + "/")
  {
    match user.base
    case Some(b) => b
    case None => if command == Build then ResolveBase(plugin, assetUrl) else ""
  }

  /** The `build` block of the fragment. */
  function BuildBlock(user: UserBuild, plugin: ResolvedPluginConfig): (r: BuildFragment)
    ensures r.manifest == (if user.manifest.Some? then user.manifest.value else ManifestFlag(!IsSsrBuild(user.ssr)))
    ensures r.outDir == (if user.outDir.Some? then user.outDir.value else ResolveOutDir(plugin, IsSsrBuild(user.ssr)))
    ensures r.input == (if user.input.Some? then user.input.value else RollupEntries(ResolveInput(plugin, IsSsrBuild(user.ssr))))
    ensures r.assetsInlineLimit == (if user.assetsInlineLimit.Some? then user.assetsInlineLimit.value else 0)
  {
    var ssr := IsSsrBuild(user.ssr);
    BuildFragment(
      manifest := user.manifest.OrElse(ManifestFlag(!ssr)),
      outDir := user.outDir.OrElse(ResolveOutDir(plugin, ssr)),
      input := user.input.OrElse(RollupEntries(ResolveInput(plugin, ssr))),
      assetsInlineLimit := user.assetsInlineLimit.OrElse(0))
  }

  // ---------------------------------------------------------------------
  // Aliases and SSR externals

  const DefaultAliasFind := "@"
  const DefaultAliasReplacement := "/resources/js"

  /** The alias merge: a list keeps the user's entries and gains one `@`
      entry at the end; a record gains `@` unless the user already maps it. */
  function MergeAliases(user: Option<Alias>): (r: Alias)
    ensures user.Some? && user.value.AliasList? ==>
              && r.AliasList?
              && |r.entries| == |user.value.entries| + 1
              && r.entries[..|user.value.entries|] == user.value.entries
              && r.entries[|user.value.entries|] == AliasEntry(DefaultAliasFind, DefaultAliasReplacement)
    ensures (user.None? || user.value.AliasMap?) ==> r.AliasMap?
    ensures r.AliasMap? ==> DefaultAliasFind in r.mapping
    ensures user.Some? && user.value.AliasMap? ==>
              && r.mapping.Keys == user.value.mapping.Keys + {DefaultAliasFind}
              && (forall k :: k in user.value.mapping ==> r.mapping[k] == user.value.mapping[k])
              && (DefaultAliasFind !in user.value.mapping ==> r.mapping[DefaultAliasFind] == DefaultAliasReplacement)
    ensures user.None? ==> r == AliasMap(map[DefaultAliasFind := DefaultAliasReplacement])
  {
    var defaults := map[DefaultAliasFind := DefaultAliasReplacement];
    match user
    case Some(AliasList(entries)) =>
      AliasList(entries + [AliasEntry(DefaultAliasFind, DefaultAliasReplacement)])
    case Some(AliasMap(m)) => AliasMap(defaults + m)
    case None => AliasMap(defaults)
  }

  /** `noExternalInertiaHelpers` */
  function NoExternalInertiaHelpers(user: Option<NoExternal>): (r: NoExternal)
    ensures r == NoExternalAll <==> user == Some(NoExternalAll)
    ensures !r.NoExternalAll? ==>
              r.NoExternalList? && |r.patterns| > 0 && r.patterns[|r.patterns| - 1] == PackageName(PluginPackage)
    ensures user.None? ==> r == NoExternalList([PackageName(PluginPackage)])
    ensures user.Some? && user.value.NoExternalOne? ==> r == NoExternalList([user.value.pattern, PackageName(PluginPackage)])
    ensures user.Some? && user.value.NoExternalList? ==>
              |r.patterns| == |user.value.patterns| + 1 && r.patterns[..|user.value.patterns|] == user.value.patterns
  {
    var plugin := [PackageName(PluginPackage)];
    match user
    case Some(NoExternalAll) => NoExternalAll
    case None => NoExternalList(plugin)
    case Some(NoExternalOne(p)) => NoExternalList([p] + plugin)
    case Some(NoExternalList(ps)) =>
      assert (ps + plugin)[..|ps|] == ps;
      NoExternalList(ps + plugin)
  }

  // ---------------------------------------------------------------------
  // Environment guard

  datatype EnvironmentGuard = OnVapor | InForge | InEnvoyer | InCI

  /** The variable whose presence trips each guard. */
  function Marker(g: EnvironmentGuard): string {
    match g
    case OnVapor => "LARAVEL_VAPOR"
    case InForge => "LARAVEL_FORGE"
    case InEnvoyer => "LARAVEL_ENVOYER"
    case InCI => "CI"
  }

  /** The order in which the guards are checked. */
  function Priority(g: EnvironmentGuard): nat {
    match g
    case OnVapor => 0
    case InForge => 1
    case InEnvoyer => 2
    case InCI => 3
  }

  const GuardLead := "You should not run the Vite HMR server "

  const BypassHint := "To disable this ENV check you may set LARAVEL_BYPASS_ENV_CHECK=1"

  /** The text of the error thrown for a guard; every one ends by naming
      the bypass variable. */
  function GuardMessage(g: EnvironmentGuard): (r: string)
    ensures StartsWith(r, GuardLead)
    ensures EndsWith(r, BypassHint)
  {
    var place := match g
      case OnVapor => "on Vapor"
      case InForge => "in your Forge deployment script"
      case InEnvoyer => "in your Envoyer hook"
      case InCI => "in CI environments";
    var middle := place + ". You should build your assets for production instead. ";
    Framed(GuardLead, middle, BypassHint);
    GuardLead + middle + BypassHint
  }


  predicate Bypassed(env: map<string, string>) {
    "LARAVEL_BYPASS_ENV_CHECK" in env && env["LARAVEL_BYPASS_ENV_CHECK"] == "1"
  }

  /** `ensureCommandShouldRunInEnvironment`: `None` when the command may run,
      otherwise the guard whose error is thrown. */
  function EnsureCommandShouldRunInEnvironment(command: Command, env: map<string, string>): (r: Option<EnvironmentGuard>)
    ensures r.None? <==> command == Build || Bypassed(env) || forall g :: Marker(g) !in env
    ensures r.Some? ==> Marker(r.value) in env
    ensures r.Some? ==> forall g :: Priority(g) < Priority(r.value) ==> Marker(g) !in env
  {
    if command == Build || Bypassed(env) then None
    else if Marker(OnVapor) in env then Some(OnVapor)
    else if Marker(InForge) in env then Some(InForge)
    else if Marker(InEnvoyer) in env then Some(InEnvoyer)
    else if Marker(InCI) in env then Some(InCI)
    else None
  }

  // ---------------------------------------------------------------------
  // Dev-server settings from Valet or the environment

  /** Why the dev-server settings could not be determined. */
  datatype ServerConfigError =
    | ValetConfigMissing
    | ValetCertificatesMissing(host: string)
    | CertificatesMissing(key: string, cert: string)
    | HostMissing(appUrl: string)

  /** The text of the error thrown for each case. */
  function ServerConfigMessage(e: ServerConfigError): string {
    match e
    case ValetConfigMissing =>
      "Unable to find the Valet configuration file. You will need to manually specify the host in the `valetTls` configuration option."
    case ValetCertificatesMissing(host) =>
      "Unable to find Valet certificate files for your host [" + host + "]. Ensure you have run \"valet secure\"."
    case CertificatesMissing(key, cert) =>
      "Unable to find the certificate files specified in your environment. Ensure you have correctly configured VITE_DEV_SERVER_KEY: ["
      + key + "] and VITE_DEV_SERVER_CERT: [" + cert + "]."
    case HostMissing(appUrl) =>
      "Unable to determine the host from the environment's APP_URL: [" + appUrl + "]."
  }

  /** `resolveValetHost`: the working directory's name under Valet's TLD. */
  function ResolveValetHost(machine: Machine): (r: Result<string, ServerConfigError>)
    ensures r.Success? <==> machine.home + "/.config/valet/config.json" in machine.files
    ensures r.Success? ==> r.value == machine.cwdName + "." + machine.valetTld
    ensures r.Failure? ==> r.error == ValetConfigMissing
  {
    if machine.home + "/.config/valet/config.json" !in machine.files then Failure(ValetConfigMissing)
    else Success(machine.cwdName + "." + machine.valetTld)
  }

  function ValetCertificate(machine: Machine, host: string, extension: string): string {
    machine.home + "/.config/valet/Certificates/" + host + "." + extension
  }

  /** The host Valet serves the site under: the one given, else the
      working directory's name under Valet's TLD. */
  function ValetSiteHost(valetTls: ValetTls, machine: Machine): string {
    if valetTls.ValetTlsHost? then valetTls.host else machine.cwdName + "." + machine.valetTld
  }

  /** Both of Valet's certificate files for `host` exist. */
  predicate HasValetCertificates(machine: Machine, host: string) {
    ValetCertificate(machine, host, "key") in machine.files && ValetCertificate(machine, host, "crt") in machine.files
  }

  /** `resolveValetServerConfig` */
  function ResolveValetServerConfig(valetTls: ValetTls, machine: Machine): (r: Result<Option<ServerConfig>, ServerConfigError>)
    ensures valetTls == ValetTlsFlag(false) ==> r == Success(None)
    ensures valetTls != ValetTlsFlag(false) ==> r != Success(None)
    ensures valetTls.ValetTlsHost? ==>
              (r.Success? <==> HasValetCertificates(machine, valetTls.host))
    ensures valetTls == ValetTlsFlag(true) ==>
              (r.Success? <==> && machine.home + "/.config/valet/config.json" in machine.files
                               && HasValetCertificates(machine, ValetSiteHost(valetTls, machine)))
    ensures r.Success? && r.value.Some? ==>
              var host := ValetSiteHost(valetTls, machine);
              r.value.value == ServerConfig(host, map["key" := ValetCertificate(machine, host, "key"),
                                                      "cert" := ValetCertificate(machine, host, "crt")])
    ensures r.Failure? ==> r.error == ValetCertificatesMissing(ValetSiteHost(valetTls, machine))
                           || (r.error == ValetConfigMissing && valetTls == ValetTlsFlag(true))
    ensures valetTls == ValetTlsFlag(true) && machine.home + "/.config/valet/config.json" !in machine.files ==>
              r == Failure(ValetConfigMissing)
    ensures r.Failure? && r.error != ValetConfigMissing ==>
              r.error == ValetCertificatesMissing(ValetSiteHost(valetTls, machine))
  {
    if valetTls == ValetTlsFlag(false) then Success(None)
    else
      var host :- if valetTls.ValetTlsHost? then Success(valetTls.host) else ResolveValetHost(machine);
      var keyPath := ValetCertificate(machine, host, "key");
      var certPath := ValetCertificate(machine, host, "crt");
      if keyPath !in machine.files || certPath !in machine.files then
        Failure(ValetCertificatesMissing(host))
      else
        Success(Some(ServerConfig(host, map["key" := keyPath, "cert" := certPath])))
  }

  /** `env.NAME` */
  function EnvValue(env: map<string, string>, name: string): Option<string> {
    if name in env then Some(env[name]) else None
  }

  /** `fs.existsSync(path)`, false for an `undefined` path. */
  predicate FileExists(machine: Machine, path: Option<string>) {
    path.Some? && path.value in machine.files
  }

  /** `resolveEnvironmentServerConfig` */
  function ResolveEnvironmentServerConfig(env: map<string, string>, machine: Machine, urlHost: string -> Option<string>): (r: Result<Option<ServerConfig>, ServerConfigError>)
    ensures r == Success(None) <==> !EnvTruthy(env, "VITE_DEV_SERVER_KEY") && !EnvTruthy(env, "VITE_DEV_SERVER_CERT")
    ensures r.Success? && r.value.Some? ==>
              && FileExists(machine, EnvValue(env, "VITE_DEV_SERVER_KEY"))
              && FileExists(machine, EnvValue(env, "VITE_DEV_SERVER_CERT"))
              && EnvValue(env, "APP_URL").Some? && urlHost(EnvValue(env, "APP_URL").value) == Some(r.value.value.host)
              && r.value.value.host != ""
    ensures (r.Failure? && r.error.CertificatesMissing?) <==>
              && (EnvTruthy(env, "VITE_DEV_SERVER_KEY") || EnvTruthy(env, "VITE_DEV_SERVER_CERT"))
              && !(FileExists(machine, EnvValue(env, "VITE_DEV_SERVER_KEY")) && FileExists(machine, EnvValue(env, "VITE_DEV_SERVER_CERT")))
    ensures r.Failure? ==> r.error.CertificatesMissing? || r.error == HostMissing(EnvText(env, "APP_URL"))
    ensures r.Failure? && r.error.CertificatesMissing? ==>
              r.error == CertificatesMissing(EnvText(env, "VITE_DEV_SERVER_KEY"), EnvText(env, "VITE_DEV_SERVER_CERT"))
    ensures (r.Failure? && r.error.HostMissing?) <==>
              && (EnvTruthy(env, "VITE_DEV_SERVER_KEY") || EnvTruthy(env, "VITE_DEV_SERVER_CERT"))
              && FileExists(machine, EnvValue(env, "VITE_DEV_SERVER_KEY")) && FileExists(machine, EnvValue(env, "VITE_DEV_SERVER_CERT"))
              && (EnvValue(env, "APP_URL").None? || urlHost(EnvValue(env, "APP_URL").value) in {None, Some("")})
    ensures r.Success? && r.value.Some? ==>
              r.value.value.https == map["key" := env["VITE_DEV_SERVER_KEY"], "cert" := env["VITE_DEV_SERVER_CERT"]]
  {
    var key := EnvValue(env, "VITE_DEV_SERVER_KEY");
    var cert := EnvValue(env, "VITE_DEV_SERVER_CERT");
    var appUrl := EnvValue(env, "APP_URL");
    if !EnvTruthy(env, "VITE_DEV_SERVER_KEY") && !EnvTruthy(env, "VITE_DEV_SERVER_CERT") then Success(None)
    else if !FileExists(machine, key) || !FileExists(machine, cert) then Failure(CertificatesMissing(EnvText(env, "VITE_DEV_SERVER_KEY"), EnvText(env, "VITE_DEV_SERVER_CERT")))
    else
      var host := if appUrl.Some? then urlHost(appUrl.value) else None;
      if host.None? || host.value == "" then Failure(HostMissing(EnvText(env, "APP_URL")))
      else Success(Some(ServerConfig(host.value, map["key" := key.value, "cert" := cert.value])))
  }

  /** The hook's `serverConfig`: while serving, Valet's settings when it
      yields any, else the environment's; nothing while building. */
  function ResolveServerConfig(plugin: ResolvedPluginConfig, inv: Invocation): (r: Result<Option<ServerConfig>, ServerConfigError>)
    ensures inv.command == Build ==> r == Success(None)
    ensures inv.command == Serve && ResolveValetServerConfig(plugin.valetTls, inv.machine) != Success(None) ==>
              r == ResolveValetServerConfig(plugin.valetTls, inv.machine)
    ensures inv.command == Serve && ResolveValetServerConfig(plugin.valetTls, inv.machine) == Success(None) ==>
              r == ResolveEnvironmentServerConfig(inv.env, inv.machine, inv.urlHost)
  {
    if inv.command == Build then Success(None)
    else
      var valet := ResolveValetServerConfig(plugin.valetTls, inv.machine);
      if valet == Success(None) then ResolveEnvironmentServerConfig(inv.env, inv.machine, inv.urlHost) else valet
  }

  // ---------------------------------------------------------------------
  // The server block

  /** Field-wise object spread `{ ...base, ...over }`. */
  function MergeHmr(base: HmrOptions, over: HmrOptions): (r: HmrOptions)
    ensures r.protocol == (if over.protocol.Some? then over.protocol else base.protocol)
    ensures r.host == (if over.host.Some? then over.host else base.host)
    ensures r.port == (if over.port.Some? then over.port else base.port)
    ensures r.clientPort == (if over.clientPort.Some? then over.clientPort else base.clientPort)
    ensures r.path == (if over.path.Some? then over.path else base.path)
  {
    HmrOptions(
      if over.protocol.Some? then over.protocol else base.protocol,
      if over.host.Some? then over.host else base.host,
      if over.port.Some? then over.port else base.port,
      if over.clientPort.Some? then over.clientPort else base.clientPort,
      if over.path.Some? then over.path else base.path)
  }

  const NoHmrOptions := HmrOptions(None, None, None, None, None)

  /** The `hmr` overlay: an explicit `false` wins, `true` or absent keeps the
      server's settings, an object is merged over them. */
  function HmrOverlay(user: Option<HmrOption>, server: ServerConfig): (r: HmrOption)
    ensures r == HmrFlag(false) <==> user == Some(HmrFlag(false))
    ensures r != HmrFlag(false) ==> r.HmrObject?
    ensures (user.None? || user == Some(HmrFlag(true))) ==> r == HmrObject(NoHmrOptions.(host := Some(server.host)))
    ensures user.Some? && user.value.HmrObject? ==>
              && r.HmrObject?
              && r.options.host == (if user.value.options.host.Some? then user.value.options.host else Some(server.host))
              && r.options.protocol == user.value.options.protocol
              && r.options.port == user.value.options.port
              && r.options.clientPort == user.value.options.clientPort
              && r.options.path == user.value.options.path
  {
    var base := NoHmrOptions.(host := Some(server.host));
    match user
    case Some(HmrFlag(false)) => HmrFlag(false)
    case Some(HmrFlag(true)) => HmrObject(base)
    case None => HmrObject(base)
    case Some(HmrObject(o)) => HmrObject(MergeHmr(base, o))
  }

  /** The `https` overlay, with the same three cases as `hmr`. */
  function HttpsOverlay(user: Option<HttpsOption>, server: ServerConfig): (r: HttpsOption)
    ensures r == HttpsFlag(false) <==> user == Some(HttpsFlag(false))
    ensures r != HttpsFlag(false) ==> r.HttpsObject? && r.fields.Keys >= server.https.Keys
    ensures (user.None? || user == Some(HttpsFlag(true))) ==> r == HttpsObject(server.https)
    ensures user.Some? && user.value.HttpsObject? ==>
              && r.fields.Keys == server.https.Keys + user.value.fields.Keys
              && (forall k :: k in user.value.fields ==> r.fields[k] == user.value.fields[k])
              && (forall k :: k in server.https && k !in user.value.fields ==> r.fields[k] == server.https[k])
  {
    match user
    case Some(HttpsFlag(false)) => HttpsFlag(false)
    case Some(HttpsFlag(true)) => HttpsObject(server.https)
    case None => HttpsObject(server.https)
    case Some(HttpsObject(o)) => HttpsObject(server.https + o)
  }

  /** The `server` block of the fragment: the origin placeholder, the Sail
      defaults when running under Sail, and the Valet or environment
      settings, later keys overriding earlier ones. */
  function ServerBlock(user: UserServer, env: map<string, string>, sail: bool, server: Option<ServerConfig>): (r: ServerFragment)
    ensures r.origin == (if user.origin.Some? then user.origin.value else Placeholder)
    ensures !sail && server.None? ==> r.host.None? && r.hmr.None? && r.https.None?
    ensures !sail ==> r.port.None? && r.strictPort.None?
    ensures r.host.Some? && user.host.Some? ==> r.host == user.host
    ensures sail || server.Some? ==> r.host.Some?
    ensures user.host.None? && server.Some? ==> r.host == Some(HostName(server.value.host))
    ensures user.host.None? && server.None? && sail ==> r.host == Some(HostName(SailHost))
    ensures sail ==> r.port == Some(if user.port.Some? then PortNumber(user.port.value)
                                    else if EnvTruthy(env, "VITE_PORT") then ParsedPort(env["VITE_PORT"])
                                    else PortNumber(SailPort))
    ensures sail ==> r.strictPort == Some(if user.strictPort.Some? then user.strictPort.value else true)
    ensures r.hmr.Some? <==> server.Some?
    ensures r.https.Some? <==> server.Some?
    ensures server.Some? ==> r.hmr == Some(HmrOverlay(user.hmr, server.value))
                              && r.https == Some(HttpsOverlay(user.https, server.value))
  {
    var origin := user.origin.OrElse(Placeholder);
    var sailHost: Option<HostOption> := if sail then Some(user.host.OrElse(HostName(SailHost))) else None;
    var port: Option<PortValue> :=
      if !sail then None
      else if user.port.Some? then Some(PortNumber(user.port.value))
      else if EnvTruthy(env, "VITE_PORT") then Some(ParsedPort(env["VITE_PORT"]))
      else Some(PortNumber(SailPort));
    var strictPort: Option<bool> := if sail then Some(user.strictPort.OrElse(true)) else None;
    match server
    case None => ServerFragment(origin, sailHost, port, strictPort, None, None)
    case Some(sc) =>
      ServerFragment(origin, Some(user.host.OrElse(HostName(sc.host))), port, strictPort,
                     Some(HmrOverlay(user.hmr, sc)), Some(HttpsOverlay(user.https, sc)))
  }

  // ---------------------------------------------------------------------
  // The hook

  datatype HookError = ServerConfigFailed(error: ServerConfigError) | GuardFailed(guard: EnvironmentGuard)

  /** The `config` hook. Server settings are resolved (and may fail) before
      the environment guard runs. */
  function Config(plugin: ResolvedPluginConfig, user: UserConfig, inv: Invocation): (r: Result<ConfigFragment, HookError>)
    ensures ResolveServerConfig(plugin, inv).Failure? ==>
              r == Failure(ServerConfigFailed(ResolveServerConfig(plugin, inv).error))
    ensures ResolveServerConfig(plugin, inv).Success? ==>
              (r.Failure? <==> EnsureCommandShouldRunInEnvironment(inv.command, inv.env).Some?)
    ensures ResolveServerConfig(plugin, inv).Success? && EnsureCommandShouldRunInEnvironment(inv.command, inv.env).Some? ==>
              r == Failure(GuardFailed(EnsureCommandShouldRunInEnvironment(inv.command, inv.env).value))
    ensures r.Failure? && r.error.GuardFailed? ==> inv.command == Serve && !Bypassed(inv.env)
    ensures inv.command == Build ==> r.Success?
    ensures r.Success? ==>
              && r.value.build == BuildBlock(user.build, plugin)
              && r.value.base == Base(user, inv.command, plugin, if "ASSET_URL" in inv.env then inv.env["ASSET_URL"] else "")
              && r.value.publicDir == (if user.publicDir.Some? then user.publicDir.value else PublicDirOff)
              && r.value.alias == MergeAliases(user.alias)
              && r.value.noExternal == NoExternalInertiaHelpers(user.noExternal)
              && r.value.server == ServerBlock(user.server, inv.env, inv.sail, ResolveServerConfig(plugin, inv).value)
  {
    var assetUrl := if "ASSET_URL" in inv.env then inv.env["ASSET_URL"] else "";
    var server := ResolveServerConfig(plugin, inv);
    if server.Failure? then Failure(ServerConfigFailed(server.error))
    else
      var guard := EnsureCommandShouldRunInEnvironment(inv.command, inv.env);
      if guard.Some? then Failure(GuardFailed(guard.value))
      else
        Success(ConfigFragment(
          base := Base(user, inv.command, plugin, assetUrl),
          publicDir := user.publicDir.OrElse(PublicDirOff),
          build := BuildBlock(user.build, plugin),
          server := ServerBlock(user.server, inv.env, inv.sail, server.value),
          alias := MergeAliases(user.alias),
          noExternal := NoExternalInertiaHelpers(user.noExternal)))
  }

  /** Every HMR field the user set is kept. */
  predicate HmrFieldsKept(user: HmrOptions, r: HmrOptions) {
    && (user.protocol.Some? ==> r.protocol == user.protocol)
    && (user.host.Some? ==> r.host == user.host)
    && (user.port.Some? ==> r.port == user.port)
    && (user.clientPort.Some? ==> r.clientPort == user.clientPort)
    && (user.path.Some? ==> r.path == user.path)
  }

  /** Every value the user set survives into the fragment, or the fragment
      leaves that key unset so that Vite keeps the user's value. */
  predicate UserValuesWin(user: UserConfig, f: ConfigFragment) {
    && (user.base.Some? ==> f.base == user.base.value)
    && (user.publicDir.Some? ==> f.publicDir == user.publicDir.value)
    && (user.build.manifest.Some? ==> f.build.manifest == user.build.manifest.value)
    && (user.build.outDir.Some? ==> f.build.outDir == user.build.outDir.value)
    && (user.build.input.Some? ==> f.build.input == user.build.input.value)
    && (user.build.assetsInlineLimit.Some? ==> f.build.assetsInlineLimit == user.build.assetsInlineLimit.value)
    && (user.server.origin.Some? ==> f.server.origin == user.server.origin.value)
    && (user.server.host.Some? && f.server.host.Some? ==> f.server.host == user.server.host)
    && (user.server.port.Some? && f.server.port.Some? ==> f.server.port == Some(PortNumber(user.server.port.value)))
    && (user.server.strictPort.Some? && f.server.strictPort.Some? ==> f.server.strictPort == user.server.strictPort)
    && (user.server.hmr == Some(HmrFlag(false)) && f.server.hmr.Some? ==> f.server.hmr == Some(HmrFlag(false)))
    && (user.server.https == Some(HttpsFlag(false)) && f.server.https.Some? ==> f.server.https == Some(HttpsFlag(false)))
    && (user.server.hmr.Some? && user.server.hmr.value.HmrObject? && f.server.hmr.Some? ==>
          f.server.hmr.value.HmrObject? && HmrFieldsKept(user.server.hmr.value.options, f.server.hmr.value.options))
    && (user.server.https.Some? && user.server.https.value.HttpsObject? && f.server.https.Some? ==>
          f.server.https.value.HttpsObject? && forall k :: k in user.server.https.value.fields ==>
            k in f.server.https.value.fields && f.server.https.value.fields[k] == user.server.https.value.fields[k])
    && (user.alias.Some? && user.alias.value.AliasList? ==>
          f.alias.AliasList? && user.alias.value.entries <= f.alias.entries)
    && (user.alias.Some? && user.alias.value.AliasMap? ==>
          f.alias.AliasMap? && forall k :: k in user.alias.value.mapping ==>
            k in f.alias.mapping && f.alias.mapping[k] == user.alias.value.mapping[k])
    && (user.noExternal.Some? && user.noExternal.value.NoExternalList? ==>
          f.noExternal.NoExternalList? && user.noExternal.value.patterns <= f.noExternal.patterns)
    && (user.noExternal.Some? && user.noExternal.value.NoExternalOne? ==>
          f.noExternal.NoExternalList? && |f.noExternal.patterns| > 0 && f.noExternal.patterns[0] == user.noExternal.value.pattern)
    && (user.noExternal == Some(NoExternalAll) ==> f.noExternal == NoExternalAll)
  }

  /** The hook never overrides a value the user configured. */
  lemma ConfigUserValuesWin(plugin: ResolvedPluginConfig, user: UserConfig, inv: Invocation)
    requires Config(plugin, user, inv).Success?
    ensures UserValuesWin(user, Config(plugin, user, inv).value)
  {
  }

  /** While building, the fragment carries no dev-server settings beyond the
      origin and the Sail defaults, and the environment guard never fires. */
  lemma BuildIgnoresServerSettings(plugin: ResolvedPluginConfig, user: UserConfig, inv: Invocation)
    requires inv.command == Build
    ensures Config(plugin, user, inv).Success?
    ensures Config(plugin, user, inv).value.server.hmr.None?
    ensures Config(plugin, user, inv).value.server.https.None?
    ensures !inv.sail ==> Config(plugin, user, inv).value.server.host.None?
  {
  }

  /** The base URL while building: `/build/` without an asset URL, and one
      separator between the asset URL and the build directory either way. */
  lemma ResolveBaseExamples(plugin: ResolvedPluginConfig)
    requires plugin.buildDirectory == "build"
    ensures ResolveBase(plugin, "") == "/build/"
    ensures ResolveBase(plugin, "http://example.com") == "http://example.com/build/"
    ensures ResolveBase(plugin, "http://example.com/") == "http://example.com/build/"
  {
  }

  const ExampleOptions := PluginOptions(Some(Entry("resources/js/app.js")), Some("public/test"), Some("/build/test/"),
                                        None, None, None, None, None, None)

  /** Leading and trailing separators of the user's directories are dropped
      when the options are resolved. */
  lemma ResolvedExampleDirectories()
    ensures var r := ResolvePluginConfig(Options(ExampleOptions));
      && r.Success?
      && r.value.publicDirectory == "public/test"
      && r.value.buildDirectory == "build/test"
      && r.value.ssrOutputDirectory == "bootstrap/ssr"
  {
    NormalizeExamples();
    assert ChosenPublicDirectory(ExampleOptions) == "public/test";
    assert ChosenBuildDirectory(ExampleOptions) == "build/test";
  }

  /** A client build of a resolved configuration writes to
      `publicDirectory/buildDirectory`; an SSR build to the SSR directory. */
  lemma OutDirOfResolvedOptions()
    ensures var r := ResolvePluginConfig(Options(ExampleOptions));
      && r.Success?
      && ResolveOutDir(r.value, false) == "public/test/build/test"
      && ResolveOutDir(r.value, true) == "bootstrap/ssr"
      && ResolveBase(r.value, "") == "/build/test/"
  {
    ResolvedExampleDirectories();
    ExampleLayout(ResolvePluginConfig(Options(ExampleOptions)).value);
  }

  lemma ExampleLayout(c: ResolvedPluginConfig)
    requires c.publicDirectory == "public/test" && c.buildDirectory == "build/test"
    requires c.ssrOutputDirectory == "bootstrap/ssr"
    ensures ResolveOutDir(c, false) == "public/test/build/test"
    ensures ResolveOutDir(c, true) == "bootstrap/ssr"
    ensures ResolveBase(c, "") == "/build/test/"
  {
  }

  lemma NormalizeExamples()
    ensures NormalizePublicDirectory("public/test") == "public/test"
    ensures NormalizeDirectory("/build/test/") == "build/test"
  {
    TrimIdle("public/test");
    assert RunEnd("public/test", IsSlash, 0) == 0;
    TrimIdle("/build/test/");
    SlashedBuildDirectory();
  }

  lemma SlashedBuildDirectory()
    ensures StripSlashes("/build/test/") == "build/test"
  {
    var t := "/build/test/";
    assert !IsSlash(t[1]);
    assert RunEnd(t, IsSlash, 1) == 1;
    assert RunEnd(t, IsSlash, 0) == 1;
    assert !IsSlash(t[10]);
    assert RunStart(t, IsSlash, 1, 11) == 11;
    assert IsSlash(t[11]);
    assert RunStart(t, IsSlash, 1, 12) == 11;
    assert t[1..11] == "build/test";
  }

  /** The options of a full configuration: every directory and the SSR
      entry given. */
  const FullOptions := PluginOptions(Some(Entry("resources/js/app.js")), Some("other-public"), Some("other-build"),
                                     None, Some(Entry("resources/js/ssr.js")), Some("other-ssr-output"), None, None, None)

  /** Directories given in normal form are kept as given. */
  lemma FullConfigurationResolves()
    ensures var r := ResolvePluginConfig(Options(FullOptions));
      && r.Success?
      && r.value.publicDirectory == "other-public"
      && r.value.buildDirectory == "other-build"
      && r.value.ssrOutputDirectory == "other-ssr-output"
      && r.value.input == Entry("resources/js/app.js")
      && r.value.ssr == Entry("resources/js/ssr.js")
  {
    FullDirectoriesChosen();
  }

  lemma FullDirectoriesChosen()
    ensures ChosenPublicDirectory(FullOptions) == "other-public"
    ensures ChosenBuildDirectory(FullOptions) == "other-build"
    ensures ChosenSsrOutputDirectory(FullOptions) == "other-ssr-output"
  {
    FullPublicIdle();
    FullBuildIdle();
    FullSsrIdle();
  }

  lemma FullPublicIdle()
    ensures NormalizePublicDirectory("other-public") == "other-public"
  {
    NormalizeIdle("other-public");
  }

  lemma FullBuildIdle()
    ensures NormalizeDirectory("other-build") == "other-build"
  {
    NormalizeIdle("other-build");
  }

  lemma FullSsrIdle()
    ensures NormalizeDirectory("other-ssr-output") == "other-ssr-output"
  {
    NormalizeIdle("other-ssr-output");
  }

  /** Building that configuration when the user sets no base and no build
      output: the client build writes a manifest into
      `other-public/other-build` from the client entry; the SSR build writes
      no manifest, into `other-ssr-output`, from the SSR entry; both are
      served from `/other-build/`. */
  lemma FullConfigurationBuilds(plugin: ResolvedPluginConfig, user: UserConfig, inv: Invocation)
    requires plugin.publicDirectory == "other-public" && plugin.buildDirectory == "other-build"
    requires plugin.ssrOutputDirectory == "other-ssr-output"
    requires plugin.input == Entry("resources/js/app.js") && plugin.ssr == Entry("resources/js/ssr.js")
    requires inv.command == Build && "ASSET_URL" !in inv.env
    requires user.base.None? && user.build.manifest.None? && user.build.outDir.None? && user.build.input.None?
    ensures var r := Config(plugin, user, inv);
      && r.Success?
      && r.value.base == "/other-build/"
      && (!IsSsrBuild(user.build.ssr) ==>
            && r.value.build.manifest == ManifestFlag(true)
            && r.value.build.outDir == "other-public/other-build"
            && r.value.build.input == RollupEntries(Entry("resources/js/app.js")))
      && (IsSsrBuild(user.build.ssr) ==>
            && r.value.build.manifest == ManifestFlag(false)
            && r.value.build.outDir == "other-ssr-output"
            && r.value.build.input == RollupEntries(Entry("resources/js/ssr.js")))
  {
    FullLayout(plugin);
  }

  lemma FullLayout(plugin: ResolvedPluginConfig)
    requires plugin.publicDirectory == "other-public" && plugin.buildDirectory == "other-build"
    ensures ResolveOutDir(plugin, false) == "other-public/other-build"
    ensures ResolveBase(plugin, "") == "/other-build/"
  {
  }
}

=== FILE: dev_server.dfy ===
/** The running dev server: the URL written to the hot file
    (`resolveDevServerUrl`), the serve-only `transform` that puts that URL
    in place of the placeholder, and the flag that binds the exit handlers
    once. */
module DevServer {
  import opened Optional
  import opened Strings
  import opened PluginConfig
  import opened ConfigHook

  /** `AddressInfo.family`: Node reports `'IPv4'`/`'IPv6'`, some releases a
      number. */
  datatype Family = FamilyName(name: string) | FamilyNumber(number: int)

  /** The address the HTTP server is listening on. */
  datatype AddressInfo = AddressInfo(address: string, family: Family, port: nat)

  /** The server settings Vite resolved: `server.hmr`, `server.https` and
      `server.host`. */
  datatype ResolvedServer = ResolvedServer(hmr: Option<HmrOption>, https: Option<HttpsOption>, host: Option<HostOption>)

  /** `isIpv6`: the string family `'IPv6'`, or the number `6` that some Node
      releases report instead. */
  predicate IsIpv6(address: AddressInfo) {
    address.family == FamilyName("IPv6") || address.family == FamilyNumber(6)
  }

  /** The HMR options when `server.hmr` is an object, else none of them. */
  function HmrFields(server: ResolvedServer): HmrOptions {
    if server.hmr.Some? && server.hmr.value.HmrObject? then server.hmr.value.options else NoHmrOptions
  }

  /** `server.https` is truthy: `true` or any object. */
  predicate HttpsTruthy(https: Option<HttpsOption>) {
    https.Some? && https.value != HttpsFlag(false)
  }

  /** `userConfig.server?.host` is truthy. */
  predicate HostTruthy(host: Option<HostOption>) {
    host.Some? && host.value != HostFlag(false) && host.value != HostName("")
  }

  /** The scheme of the URL. */
  function UrlProtocol(server: ResolvedServer): (r: string)
    ensures r == "http" || r == "https"
    ensures var p := HmrFields(server).protocol;
      r == "https" <==> (p.Some? && p.value != "" && p.value == "wss")
                        || ((p.None? || p.value == "") && HttpsTruthy(server.https))
  {
    var p := HmrFields(server).protocol;
    if p.Some? && p.value != "" then (if p.value == "wss" then "https" else "http")
    else if HttpsTruthy(server.https) then "https"
    else "http"
  }

  /** The host of the URL: the HMR host, then `localhost` under Sail when the
      user set no host, then a string `server.host`, then the bound address. */
  function UrlHost(address: AddressInfo, server: ResolvedServer, userHost: Option<HostOption>, sail: bool): (r: string)
    ensures HmrFields(server).host.Some? ==> r == HmrFields(server).host.value
    ensures HmrFields(server).host.None? && sail && !HostTruthy(userHost) ==> r == "localhost"
    ensures (HmrFields(server).host.None? && !(sail && !HostTruthy(userHost)) && server.host.Some? && server.host.value.HostName?)
            ==> r == server.host.value.name
    ensures (&& HmrFields(server).host.None? && !(sail && !HostTruthy(userHost))
             && !(server.host.Some? && server.host.value.HostName?))
            ==> r == (if IsIpv6(address) then "[" + address.address + "]" else address.address)
  {
    var hmrHost := HmrFields(server).host;
    var sailHost := if sail && !HostTruthy(userHost) then Some("localhost") else None;
    var configHost := if server.host.Some? && server.host.value.HostName? then Some(server.host.value.name) else None;
    var serverAddress := if IsIpv6(address) then "[" + address.address + "]" else address.address;
    hmrHost.OrElse(sailHost.OrElse(configHost.OrElse(serverAddress)))
  }

  /** The port of the URL: the HMR client port, else the bound port. */
  function UrlPort(address: AddressInfo, server: ResolvedServer): (r: nat)
    ensures HmrFields(server).clientPort.Some? ==> r == HmrFields(server).clientPort.value
    ensures HmrFields(server).clientPort.None? ==> r == address.port
  {
    HmrFields(server).clientPort.OrElse(address.port)
  }

  /** Index of the last `:` in `s[..i]`, or `-1`. */
  function LastColon(s: string, i: nat): (r: int)
    requires i <= |s|
    ensures -1 <= r < i
    ensures r >= 0 ==> s[r] == ':'
    ensures forall j :: r < j < i ==> s[j] != ':'
  {
    if i == 0 then -1 else if s[i - 1] == ':' then i - 1 else LastColon(s, i - 1)
  }

  /** Splits off an `http://` or `https://` scheme. */
  function ParseScheme(url: string): Option<(string, string)> {
    if StartsWith(url, "https://") then Some(("https", url[8..]))
    else if StartsWith(url, "http://") then Some(("http", url[7..]))
    else None
  }

  predicate AllDigits(s: string) {
    forall j :: 0 <= j < |s| ==> IsDigit(s[j])
  }

  /** Splits `host:port` at the last `:`; the port must be decimal digits. */
  function SplitHostPort(rest: string): Option<(string, nat)> {
    var c := LastColon(rest, |rest|);
    if c == -1 || c + 1 == |rest| || !AllDigits(rest[c + 1..]) then None
    else Some((rest[..c], ParseDecimal(rest[c + 1..])))
  }

  /** Reads `proto://host:port` back into its parts. */
  function ParseDevServerUrl(url: string): Option<(string, string, nat)> {
    match ParseScheme(url)
    case None => None
    case Some((proto, rest)) =>
      match SplitHostPort(rest)
      case None => None
      case Some((host, port)) => Some((proto, host, port))
  }

  /** `resolveDevServerUrl`: `protocol://host:port` from the three parts
      above, and nothing else. */
  function ResolveDevServerUrl(address: AddressInfo, server: ResolvedServer, userHost: Option<HostOption>, sail: bool): (url: string)
    ensures url == UrlProtocol(server) + "://" + UrlHost(address, server, userHost, sail) + ":" + NatToString(UrlPort(address, server))
    ensures ParseDevServerUrl(url) == Some((UrlProtocol(server), UrlHost(address, server, userHost, sail), UrlPort(address, server)))
  {
    var proto := UrlProtocol(server);
    var host := UrlHost(address, server, userHost, sail);
    var port := UrlPort(address, server);
    UrlRoundTrip(proto, host, port);
    proto + "://" + host + ":" + NatToString(port)
  }

  /** Splitting a URL built from a scheme, any host and a port gives the parts
      back, even when the host itself holds `:` (an IPv6 address). */
  lemma UrlRoundTrip(proto: string, host: string, port: nat)
    requires proto == "http" || proto == "https"
    ensures ParseDevServerUrl(proto + "://" + host + ":" + NatToString(port)) == Some((proto, host, port))
  {
    var rest := host + ":" + NatToString(port);
    assert proto + "://" + host + ":" + NatToString(port) == proto + "://" + rest;
    SchemeOf(proto, rest);
    HostPortSplit(host, port);
  }

  /** The scheme is read back from the front of the URL. */
  lemma SchemeOf(proto: string, rest: string)
    requires proto == "http" || proto == "https"
    ensures ParseScheme(proto + "://" + rest) == Some((proto, rest))
  {
    var url := proto + "://" + rest;
    if proto == "http" {
      assert url[4] == ':';
      assert url[..7] == "http://";
    } else {
      assert url[..8] == "https://";
    }
  }

  /** `host:port` splits at the colon before the digits. */
  lemma HostPortSplit(host: string, port: nat)
    ensures SplitHostPort(host + ":" + NatToString(port)) == Some((host, port))
  {
    var digits := NatToString(port);
    var rest := host + ":" + digits;
    assert rest[|host|] == ':';
    forall j | |host| < j < |rest| ensures rest[j] != ':' {
      assert rest[j] == digits[j - |host| - 1];
    }
    assert LastColon(rest, |rest|) == |host|;
    assert rest[..|host|] == host;
    assert rest[|host| + 1..] == digits;
    ParseNatToString(port);
  }

  /** Without an HMR or configured host, an IPv6 address is bracketed in the
      URL whichever way Node reports the family, and any other family is
      written as it is. */
  lemma Ipv6AddressBracketed(address: AddressInfo, server: ResolvedServer)
    requires HmrFields(server).host.None? && !(server.host.Some? && server.host.value.HostName?)
    ensures address.family == FamilyName("IPv6") || address.family == FamilyNumber(6) ==>
              ParseDevServerUrl(ResolveDevServerUrl(address, server, None, false)).value.1 == "[" + address.address + "]"
    ensures address.family != FamilyName("IPv6") && address.family != FamilyNumber(6) ==>
              ParseDevServerUrl(ResolveDevServerUrl(address, server, None, false)).value.1 == address.address
  {
  }

  // ---------------------------------------------------------------------
  // The serve-only transform

  /** `transform(code)`: while serving, every placeholder becomes the dev
      server URL and the user's `transformOnServe` runs on the result; while
      building the hook returns nothing and the code is left alone. */
  function TransformCode(command: Command, code: string, url: string, transformOnServe: Transform): (r: Option<string>)
    ensures r.Some? <==> command == Serve
    ensures command == Serve ==> r.value == transformOnServe(ReplaceAll(code, Placeholder, url), url)
  {
    if command == Serve then
      Some(transformOnServe(ReplaceAll(code, Placeholder, url), url))
    else None
  }

  /** With the default `transformOnServe`, served code without the
      placeholder is passed through untouched. */
  lemma TransformLeavesPlainCode(plugin: ResolvedPluginConfig, code: string, url: string)
    requires plugin.transformOnServe == Identity
    requires Free(code, Placeholder)
    ensures TransformCode(Serve, code, url, plugin.transformOnServe) == Some(code)
  {
    ReplaceAllFree(code, Placeholder, url);
  }

  /** With the default `transformOnServe`, the first placeholder is
      replaced by the URL and the text before it is kept. */
  lemma TransformInsertsUrl(a: string, b: string, url: string)
    requires Free(a + Placeholder[..|Placeholder| - 1], Placeholder)
    ensures TransformCode(Serve, a + Placeholder + b, url, Identity) == Some(a + url + ReplaceAll(b, Placeholder, url))
  {
    var s := a + Placeholder + b;
    var t := a + Placeholder[..|Placeholder| - 1];
    forall i: nat | i < |a| ensures !OccursAt(s, Placeholder, i) {
      assert i + |Placeholder| <= |t|;
      assert s[i..i + |Placeholder|] == t[i..i + |Placeholder|];
      assert !OccursAt(t, Placeholder, i);
    }
    ReplaceAllLeftmost(a, Placeholder, url, b);
  }

  // ---------------------------------------------------------------------
  // Exit handlers

  /** The module-level `exitHandlersBound` flag and the process events the
      plugin has subscribed to, in order. */
  datatype ExitHandlers = ExitHandlers(bound: bool, subscriptions: seq<string>)

  const ExitEvents: seq<string> := ["exit", "SIGINT", "SIGTERM", "SIGHUP"]

  const Unbound := ExitHandlers(false, [])

  /** The exit-handler part of `configureServer`. */
  function ConfigureServer(s: ExitHandlers): (r: ExitHandlers)
    ensures r.bound
    ensures s.bound ==> r == s
    ensures !s.bound ==> r.subscriptions == s.subscriptions + ExitEvents
  {
    if s.bound then s else ExitHandlers(true, s.subscriptions + ExitEvents)
  }

  /** `n` successive `configureServer` calls. */
  function ConfigureServerTimes(s: ExitHandlers, n: nat): ExitHandlers
    decreases n
  {
    if n == 0 then s else ConfigureServerTimes(ConfigureServer(s), n - 1)
  }

  /** However many dev servers are configured, each process event gets
      exactly one handler. */
  lemma {:induction false} ExitHandlersBoundOnce(n: nat)
    requires n >= 1
    ensures ConfigureServerTimes(Unbound, n) == ExitHandlers(true, ExitEvents)
  {
    assert ConfigureServer(Unbound) == ExitHandlers(true, ExitEvents);
    BoundStaysPut(ExitHandlers(true, ExitEvents), n - 1);
  }

  lemma {:induction false} BoundStaysPut(s: ExitHandlers, n: nat)
    requires s.bound
    ensures ConfigureServerTimes(s, n) == s
  {
    if n > 0 {
      BoundStaysPut(ConfigureServer(s), n - 1);
    }
  }
}

=== FILE: full_reload.dfy ===
/** `resolveFullReloadConfig`: the polymorphic `refresh` option turned into
    the list of `{ paths, config }` records, one vite-plugin-full-reload
    instance per record. */
module FullReload {
  import opened Optional
  import opened PluginConfig

  /** Every path named by a list of records. */
  function PathsOf(cs: seq<RefreshConfig>): set<string> {
    set c, p | c in cs && p in c.paths :: p
  }

  /** Every path the user's `refresh` value names, whatever its shape. */
  function NamedPaths(refresh: Refresh): set<string> {
    match refresh
    case RefreshFlag(_) => {}
    case RefreshPath(p) => {p}
    case RefreshPaths(ps) => set p | p in ps
    case RefreshOne(c) => set p | p in c.paths
    case RefreshMany(cs) => PathsOf(cs)
  }

  /** `resolveFullReloadConfig`, returning the records rather than plugins. */
  function ResolveFullReloadConfig(refresh: Refresh): (r: seq<RefreshConfig>)
    ensures PathsOf(r) == NamedPaths(refresh)
    ensures |r| == 0 <==> refresh.RefreshFlag? || refresh == RefreshPaths([]) || refresh == RefreshMany([])
    ensures !refresh.RefreshMany? ==> |r| <= 1
    ensures refresh.RefreshMany? ==> r == refresh.configs
    ensures refresh.RefreshOne? ==> r == [refresh.config]
    ensures refresh.RefreshPath? ==> r == [RefreshConfig([refresh.path], None)]
    ensures refresh.RefreshPaths? && |refresh.paths| > 0 ==> r == [RefreshConfig(refresh.paths, None)]
    ensures forall i :: 0 <= i < |r| && !refresh.RefreshOne? && !refresh.RefreshMany? ==> r[i].options.None?
  {
    match refresh
    case RefreshFlag(_) => []
    case RefreshPath(p) =>
      var c := RefreshConfig([p], None);
      assert p in c.paths && c in [c];
      [c]
    case RefreshPaths(ps) =>
      // `config.some(c => typeof c === 'string')` is false for an empty list.
      if |ps| > 0 then [RefreshConfig(ps, None)] else []
    case RefreshOne(c) => [c]
    case RefreshMany(cs) => cs
  }

  /** `refresh: true` watches exactly the default paths, with no options. */
  lemma RefreshTrueWatchesDefaults(e: Entries)
    ensures var r := ResolvePluginConfig(Options(PluginOptions(Some(e), None, None, None, None, None, Some(RefreshFlag(true)), None, None)));
      && r.Success?
      && ResolveFullReloadConfig(r.value.refresh) == [RefreshConfig(RefreshPathsDefault, None)]
  {
  }
}

=== FILE: optional.dfy ===
/** Option and Result types shared by every module of the model.
    `None` stands for a JavaScript `undefined` (a missing key or an absent
    option); `Failure` stands for a thrown `Error`. */
module Optional {

  datatype Option<+T> = None | Some(value: T) {

    /** The `??` operator: this value unless it is missing. */
    function OrElse(fallback: T): (r: T)
      ensures Some? ==> r == value
      ensures None? ==> r == fallback
    {
      match this
      case Some(v) => v
      case None => fallback
    }
  }

  datatype Result<+T, +E> = Success(value: T) | Failure(error: E) {

    predicate IsFailure() { Failure? }

    function PropagateFailure<U>(): Result<U, E>
      requires Failure?
    {
      Failure(error)
    }

    function Extract(): T
      requires Success?
    {
      value
    }
  }
}

=== FILE: orphaned_assets.dfy ===
/** The three asset scripts, bin/clean.js, bin/clear-orphaned-assets.js and
    bin/purge-orphaned-assets.js. Each reads Vite's manifest, lists the
    assets directory, and removes (or, with `--dry-run`, reports) the files
    the manifest no longer names. The filesystem is an input: the files
    that exist with their parsed contents, and the directory listings. */
module OrphanedAssets {
  import opened Optional
  import opened Strings
  import opened Argv
  import PosixPath

  datatype Script = Clean | ClearOrphanedAssets | PurgeOrphanedAssets

  /** One `Dirent` from `readdirSync(dir, { withFileTypes: true })`. */
  datatype DirEntry = DirEntry(name: string, isFile: bool)

  /** A value the scripts take as an asset path: a string, or anything else
      (`undefined`, an object, a number), on which `endsWith` throws. */
  datatype Asset = AssetPath(path: string) | NotAString

  /** The value stored under one manifest key. A client manifest maps each
      source to a chunk object with a `file` field; an SSR manifest maps each
      module to a list of files. A number or boolean behaves like a chunk
      without a string `file`. */
  datatype ManifestValue =
    | Chunk(file: Asset)
    | FileList(items: seq<Asset>)
    | Text(text: string)
    | NullValue

  /** The manifest's entries in `Object.keys` order. */
  type Manifest = seq<(string, ManifestValue)>

  /** A file on disk: a manifest that parses, or anything else. */
  datatype FileState = ManifestFile(manifest: Manifest) | OtherFile

  datatype FileSystem = FileSystem(files: map<string, FileState>, directories: map<string, seq<DirEntry>>)

  /** The ways a run can end with an uncaught exception. */
  datatype CrashReason =
    | ManifestUnreadable
    | ManifestEntryNull
    | AssetsDirectoryUnreadable
    | AssetNotAString

  datatype Status = Completed | Exited(code: int) | Crashed(reason: CrashReason)

  /** A line written to standard output or standard error. */
  datatype Message = Out(text: string) | Err(text: string)

  /** What a run did: how it ended, what it wrote, which paths it unlinked
      (in order). */
  datatype Outcome = Outcome(status: Status, log: seq<Message>, deleted: seq<string>)

  const PublicManifest := "./public/build/manifest.json"
  const SsrManifest := "./bootstrap/ssr/ssr-manifest.json"

  /** `existsSync(path)` */
  predicate Exists(fs: FileSystem, path: string) {
    path in fs.files || path in fs.directories
  }

  // ---------------------------------------------------------------------
  // Configuration from argv

  datatype Settings = Settings(dryRun: bool, quiet: bool, wantsSsr: bool, manifestPath: string, assetsDirectory: string)

  /** The manifest read when `--manifest=` is not given. `clean` falls back
      to the client manifest when the SSR one is missing; the other two
      scripts go by `--ssr` alone. */
  function DefaultManifest(script: Script, wantsSsr: bool, fs: FileSystem): (r: string)
    ensures !wantsSsr ==> r == PublicManifest
    ensures wantsSsr && script != Clean ==> r == SsrManifest
    ensures wantsSsr && script == Clean ==> (r == SsrManifest <==> Exists(fs, SsrManifest))
    ensures r == PublicManifest || r == SsrManifest
  {
    if !wantsSsr then PublicManifest
    else if script != Clean then SsrManifest
    else if Exists(fs, SsrManifest) then SsrManifest
    else PublicManifest
  }

  /** The settings a script derives from its arguments. */
  function ReadSettings(script: Script, argv: seq<string>, fs: FileSystem): (s: Settings)
    ensures s.dryRun == HasOption(argv, "dry-run") && s.quiet == HasOption(argv, "quiet")
    ensures s.wantsSsr == HasOption(argv, "ssr")
    ensures s.manifestPath == Argument(argv, "manifest", DefaultManifest(script, s.wantsSsr, fs))
    ensures s.assetsDirectory == Argument(argv, "assets", PosixPath.Dirname(s.manifestPath) + "/assets")
  {
    var wantsSsr := HasOption(argv, "ssr");
    var manifestPath := Argument(argv, "manifest", DefaultManifest(script, wantsSsr, fs));
    Settings(
      dryRun := HasOption(argv, "dry-run"),
      quiet := HasOption(argv, "quiet"),
      wantsSsr := wantsSsr,
      manifestPath := manifestPath,
      assetsDirectory := Argument(argv, "assets", PosixPath.Dirname(manifestPath) + "/assets"))
  }

  /** The default assets directories sit next to the default manifests. */
  lemma DefaultAssetsDirectories()
    ensures PosixPath.Dirname(PublicManifest) + "/assets" == "./public/build/assets"
    ensures PosixPath.Dirname(SsrManifest) + "/assets" == "./bootstrap/ssr/assets"
  {
    ManifestDirectory("./public/build", "manifest.json", PublicManifest);
    ManifestDirectory("./bootstrap/ssr", "ssr-manifest.json", SsrManifest);
  }

  lemma ManifestDirectory(dir: string, name: string, path: string)
    requires |dir| > 0 && dir[|dir| - 1] != '/'
    requires |name| > 0 && forall j :: 0 <= j < |name| ==> name[j] != '/'
    requires path == dir + "/" + name
    ensures PosixPath.Dirname(path) == dir
  {
    PosixPath.DirnameOfChild(dir, name);
  }

  // ---------------------------------------------------------------------
  // Reading the manifest

  /** `Array.isArray(manifest[manifestKeys[0]])`: only the first entry
      decides, and an empty manifest is a client manifest. */
  predicate IsSsrManifest(m: Manifest) {
    |m| > 0 && m[0].1.FileList?
  }

  /** All values flattened one level, as `flatMap` does: a list contributes
      its items, anything else itself. */
  function SsrAssets(m: Manifest): (r: seq<Asset>)
    ensures (forall i :: 0 <= i < |m| ==> m[i].1.FileList?) ==>
              forall a :: a in r <==> exists i :: 0 <= i < |m| && a in m[i].1.items
  {
    if |m| == 0 then []
    else
      var head := match m[0].1
        case FileList(items) => items
        case Text(t) => [AssetPath(t)]
        case Chunk(_) => [NotAString]
        case NullValue => [NotAString];
      var r := head + SsrAssets(m[1..]);
      assert forall i :: 1 <= i < |m| ==> m[i] == m[1..][i - 1];
      r
  }

  /** `flatMap` distributes over the manifest's entries, in key order. */
  lemma {:induction false} SsrAssetsAppend(m1: Manifest, m2: Manifest)
    ensures SsrAssets(m1 + m2) == SsrAssets(m1) + SsrAssets(m2)
    decreases |m1|
  {
    if |m1| > 0 {
      assert (m1 + m2)[0] == m1[0];
      assert (m1 + m2)[1..] == m1[1..] + m2;
      SsrAssetsAppend(m1[1..], m2);
    } else {
      assert m1 + m2 == m2;
    }
  }

  /** One list entry contributes exactly its items, in order. */
  lemma SsrAssetsOfList(key: string, items: seq<Asset>)
    ensures SsrAssets([(key, FileList(items))]) == items
  {
    assert [(key, FileList(items))][1..] == [];
  }

  /** Each value's `file`; reading a field of `null` throws. */
  function ClientAssets(m: Manifest): (r: Result<seq<Asset>, CrashReason>)
    ensures r.Success? <==> forall i :: 0 <= i < |m| ==> !m[i].1.NullValue?
    ensures r.Failure? ==> r.error == ManifestEntryNull
    ensures r.Success? ==> |r.value| == |m|
    ensures r.Success? ==> forall i :: 0 <= i < |m| ==>
              r.value[i] == (if m[i].1.Chunk? then m[i].1.file else NotAString)
  {
    if |m| == 0 then Success([])
    else if m[0].1.NullValue? then Failure(ManifestEntryNull)
    else
      var rest := ClientAssets(m[1..]);
      assert forall i :: 1 <= i < |m| ==> m[i] == m[1..][i - 1];
      if rest.Failure? then rest
      else Success([if m[0].1.Chunk? then m[0].1.file else NotAString] + rest.value)
  }

  /** `manifestAssets` */
  function ManifestAssets(m: Manifest): (r: Result<seq<Asset>, CrashReason>)
    ensures IsSsrManifest(m) ==> r == Success(SsrAssets(m))
    ensures !IsSsrManifest(m) ==> r == ClientAssets(m)
    ensures r.Failure? ==> !IsSsrManifest(m) && r.error == ManifestEntryNull
  {
    if IsSsrManifest(m) then Success(SsrAssets(m)) else ClientAssets(m)
  }

  // ---------------------------------------------------------------------
  // Orphans

  /** `asset.endsWith('/' + name)` for a string asset. */
  predicate Names(a: Asset, name: string) {
    a.AssetPath? && EndsWith(a.path, "/" + name)
  }

  /** Some asset names the file. */
  predicate Referenced(assets: seq<Asset>, name: string) {
    exists i :: 0 <= i < |assets| && Names(assets[i], name)
  }

  /** A regular file no asset names. */
  predicate IsOrphan(e: DirEntry, assets: seq<Asset>) {
    e.isFile && !Referenced(assets, e.name)
  }

  predicate AllStrings(assets: seq<Asset>) {
    forall i :: 0 <= i < |assets| ==> assets[i].AssetPath?
  }

  /** `assets.findIndex(a => a.endsWith('/' + name)) !== -1`. The scan stops
      at the first match; a non-string met before one throws. */
  function FindAsset(assets: seq<Asset>, name: string): (r: Result<bool, CrashReason>)
    ensures r.Success? ==> (r.value <==> Referenced(assets, name))
    ensures AllStrings(assets) ==> r.Success?
    ensures r.Failure? ==> r.error == AssetNotAString
  {
    if |assets| == 0 then Success(false)
    else if assets[0].NotAString? then Failure(AssetNotAString)
    else if EndsWith(assets[0].path, "/" + name) then Success(true)
    else
      var r := FindAsset(assets[1..], name);
      assert forall i :: 1 <= i < |assets| ==> assets[i] == assets[1..][i - 1];
      r
  }

  /** `b` keeps the elements of `a`, in order, possibly with others between. */
  predicate IsSubsequence<T(==)>(a: seq<T>, b: seq<T>)
    decreases |b|
  {
    |a| == 0 || (|b| > 0 && ((a[0] == b[0] && IsSubsequence(a[1..], b[1..])) || IsSubsequence(a, b[1..])))
  }

  /** `allAssets.filter(f => f.isFile()).filter(f => assets.findIndex(...) === -1)`. */
  function Orphans(entries: seq<DirEntry>, assets: seq<Asset>): (r: Result<seq<DirEntry>, CrashReason>)
    ensures AllStrings(assets) ==> r.Success?
    ensures r.Success? ==> forall e :: e in r.value <==> e in entries && IsOrphan(e, assets)
    ensures r.Success? ==> IsSubsequence(r.value, entries)
    ensures r.Failure? ==> r.error == AssetNotAString
  {
    if |entries| == 0 then Success([])
    else
      var e := entries[0];
      var rest := Orphans(entries[1..], assets);
      assert forall x :: x in entries <==> x == e || x in entries[1..];
      if !e.isFile then rest
      else
        var found := FindAsset(assets, e.name);
        if found.Failure? then Failure(found.error)
        else if rest.Failure? then rest
        else if found.value then
          Success(rest.value)
        else
          assert ([e] + rest.value)[1..] == rest.value;
          Success([e] + rest.value)
  }

  /** A directory with no regular files has no orphans, whatever the
      manifest holds. */
  lemma {:induction false} NoFilesNoOrphans(entries: seq<DirEntry>, assets: seq<Asset>)
    requires forall i :: 0 <= i < |entries| ==> !entries[i].isFile
    ensures Orphans(entries, assets) == Success([])
  {
    if |entries| > 0 {
      NoFilesNoOrphans(entries[1..], assets);
    }
  }

  // ---------------------------------------------------------------------
  // Messages

  const NoOrphansMessage := "No ophaned assets found."

  /** The count line, singular for exactly one orphan. */
  function CountMessage(n: nat): (r: string)
    ensures StartsWith(r, "[" + NatToString(n) + "] orphaned asset")
    ensures EndsWith(r, " asset found.") <==> n == 1
    ensures n != 1 ==> EndsWith(r, " assets found.")
  {
    var head := "[" + NatToString(n) + "] orphaned ";
    var r := if n == 1 then head + "asset found." else head + "assets found.";
    assert r[..|head| + 5] == head + "asset";
    assert n != 1 ==> r[|r| - 14..] == " assets found.";
    r
  }

  /** The message for one orphan at `path`. */
  function OrphanMessage(dryRun: bool, path: string): string {
    if dryRun then "Orphaned asset [" + path + "] would be removed."
    else "Removing orphaned asset [" + path + "]."
  }

  /** What a script writes when `--ssr` meets a client manifest. */
  function MismatchMessage(script: Script): Message {
    if script == ClearOrphanedAssets then Err("Did not expected SSR manifest.")
    else Out("Did not find an SSR manifest.")
  }

  /** `info`/`error`/`write`: a no-op under `--quiet`. */
  function Emit(s: Settings, m: Message): (r: seq<Message>)
    ensures s.quiet ==> r == []
    ensures !s.quiet ==> r == [m]
  {
    if s.quiet then [] else [m]
  }

  /** A directory listing names each entry once. */
  predicate DistinctNames(entries: seq<DirEntry>) {
    forall i, j :: 0 <= i < j < |entries| ==> entries[i].name != entries[j].name
  }

  /** `${assetsDirectory}/${asset.name}` */
  function AssetPathOf(dir: string, e: DirEntry): string {
    dir + "/" + e.name
  }

  /** The paths of a list of entries. */
  function PathsOf(dir: string, es: seq<DirEntry>): (r: seq<string>)
    ensures |r| == |es|
    ensures forall i :: 0 <= i < |es| ==> r[i] == AssetPathOf(dir, es[i])
  {
    if |es| == 0 then [] else [AssetPathOf(dir, es[0])] + PathsOf(dir, es[1..])
  }

  /** The per-orphan lines, in directory order. */
  function OrphanLines(s: Settings, orphans: seq<DirEntry>): (r: seq<Message>)
    ensures s.quiet ==> r == []
    ensures !s.quiet ==> |r| == |orphans|
    ensures !s.quiet ==> forall i :: 0 <= i < |orphans| ==>
              r[i] == Out(OrphanMessage(s.dryRun, AssetPathOf(s.assetsDirectory, orphans[i])))
  {
    if |orphans| == 0 then []
    else
      assert forall i :: 1 <= i < |orphans| ==> orphans[i] == orphans[1..][i - 1];
      Emit(s, Out(OrphanMessage(s.dryRun, AssetPathOf(s.assetsDirectory, orphans[0])))) + OrphanLines(s, orphans[1..])
  }

  /** The report after the orphans are known. */
  function Report(s: Settings, orphans: seq<DirEntry>): (r: seq<Message>)
    ensures s.quiet ==> r == []
    ensures !s.quiet && |orphans| == 0 ==> r == [Out(NoOrphansMessage)]
    ensures !s.quiet && |orphans| > 0 ==> |r| == |orphans| + 1 && r[0] == Out(CountMessage(|orphans|))
    ensures !s.quiet && |orphans| > 0 ==> r[1..] == OrphanLines(s, orphans)
  {
    if |orphans| == 0 then Emit(s, Out(NoOrphansMessage))
    else Emit(s, Out(CountMessage(|orphans|))) + OrphanLines(s, orphans)
  }

  // ---------------------------------------------------------------------
  // A run

  /** The script from the manifest read onwards. */
  function Scan(script: Script, s: Settings, fs: FileSystem, m: Manifest, before: seq<Message>): (o: Outcome)
    ensures s.quiet ==> o.log == before
    ensures s.dryRun ==> o.deleted == []
    ensures o.status.Exited? ==> o.status == Exited(1) && script != Clean && s.wantsSsr && !IsSsrManifest(m)
    ensures !o.status.Completed? ==> o.deleted == []
  {
    var ssr := IsSsrManifest(m);
    if script != Clean && s.wantsSsr && !ssr then
      Outcome(Exited(1), before + Emit(s, MismatchMessage(script)), [])
    else
      var found := before + Emit(s, Out(if ssr then "SSR manifest found." else "Non-SSR manifest found."));
      var assets := ManifestAssets(m);
      if assets.Failure? then Outcome(Crashed(assets.error), found, [])
      else
        var listed := found + Emit(s, Out("Verify assets in [" + s.assetsDirectory + "]."));
        if s.assetsDirectory !in fs.directories then Outcome(Crashed(AssetsDirectoryUnreadable), listed, [])
        else
          var orphans := Orphans(fs.directories[s.assetsDirectory], assets.value);
          if orphans.Failure? then Outcome(Crashed(orphans.error), listed, [])
          else
            Outcome(Completed, listed + Report(s, orphans.value),
                    if s.dryRun then [] else PathsOf(s.assetsDirectory, orphans.value))
  }

  /** One run of `script` with arguments `argv` against `fs`. */
  function Run(script: Script, argv: seq<string>, fs: FileSystem): (o: Outcome)
    ensures HasOption(argv, "quiet") ==> o.log == []
    ensures HasOption(argv, "dry-run") ==> o.deleted == []
    ensures o.status.Exited? ==> o.status == Exited(1) && script != Clean && HasOption(argv, "ssr") && o.deleted == []
    ensures !o.status.Completed? ==> o.deleted == []
  {
    var s := ReadSettings(script, argv, fs);
    var reading := Emit(s, Out("Reading manifest [" + s.manifestPath + "]."));
    if s.manifestPath !in fs.files || fs.files[s.manifestPath].OtherFile? then
      Outcome(Crashed(ManifestUnreadable), reading, [])
    else
      Scan(script, s, fs, fs.files[s.manifestPath].manifest, reading)
  }

  /** The manifest a run reads, when it parses. */
  predicate ReadsManifest(script: Script, argv: seq<string>, fs: FileSystem, m: Manifest) {
    var p := ReadSettings(script, argv, fs).manifestPath;
    p in fs.files && fs.files[p] == ManifestFile(m)
  }

  /** The listing of the directory a run scans, when it exists. */
  predicate ListsDirectory(script: Script, argv: seq<string>, fs: FileSystem, entries: seq<DirEntry>) {
    var d := ReadSettings(script, argv, fs).assetsDirectory;
    d in fs.directories && fs.directories[d] == entries
  }

  // ---------------------------------------------------------------------
  // Properties of a run

  /** What a completed run deletes: the orphans' paths, or nothing under
      `--dry-run`. */
  lemma CompletedRunDeletes(script: Script, argv: seq<string>, fs: FileSystem, m: Manifest, entries: seq<DirEntry>)
    requires ReadsManifest(script, argv, fs, m) && ListsDirectory(script, argv, fs, entries)
    requires Run(script, argv, fs).status == Completed
    ensures ManifestAssets(m).Success? && Orphans(entries, ManifestAssets(m).value).Success?
    ensures var s := ReadSettings(script, argv, fs);
      Run(script, argv, fs).deleted ==
        (if s.dryRun then [] else PathsOf(s.assetsDirectory, Orphans(entries, ManifestAssets(m).value).value))
  {
  }

  /** A completed run without `--dry-run` deletes exactly the orphans: the
      path of a listed entry is deleted iff the entry is a regular file no
      manifest asset names. */
  lemma DeletesExactlyOrphans(script: Script, argv: seq<string>, fs: FileSystem, m: Manifest, entries: seq<DirEntry>)
    requires ReadsManifest(script, argv, fs, m) && ListsDirectory(script, argv, fs, entries)
    requires DistinctNames(entries)
    requires !HasOption(argv, "dry-run")
    requires Run(script, argv, fs).status == Completed
    ensures ManifestAssets(m).Success?
    ensures var dir := ReadSettings(script, argv, fs).assetsDirectory;
      forall e :: e in entries ==>
        (AssetPathOf(dir, e) in Run(script, argv, fs).deleted <==> IsOrphan(e, ManifestAssets(m).value))
  {
    CompletedRunDeletes(script, argv, fs, m, entries);
    var dir := ReadSettings(script, argv, fs).assetsDirectory;
    DeletedPathsAreOrphans(dir, entries, ManifestAssets(m).value);
  }

  /** The orphans' paths name exactly the orphan entries of the listing. */
  lemma DeletedPathsAreOrphans(dir: string, entries: seq<DirEntry>, assets: seq<Asset>)
    requires DistinctNames(entries)
    requires Orphans(entries, assets).Success?
    ensures forall e :: e in entries ==>
              (AssetPathOf(dir, e) in PathsOf(dir, Orphans(entries, assets).value) <==> IsOrphan(e, assets))
  {
    var orphans := Orphans(entries, assets).value;
    var deleted := PathsOf(dir, orphans);
    forall e | e in entries
      ensures AssetPathOf(dir, e) in deleted <==> IsOrphan(e, assets)
    {
      if AssetPathOf(dir, e) in deleted {
        var i :| 0 <= i < |deleted| && deleted[i] == AssetPathOf(dir, e);
        PathInjective(dir, orphans[i], e);
        assert orphans[i] in orphans;
        var p :| 0 <= p < |entries| && entries[p] == orphans[i];
        var q :| 0 <= q < |entries| && entries[q] == e;
        assert p == q;
      }
    }
  }

  /** Within one directory, an entry's path determines its name. */
  lemma PathInjective(dir: string, a: DirEntry, b: DirEntry)
    requires AssetPathOf(dir, a) == AssetPathOf(dir, b)
    ensures a.name == b.name
  {
    assert a.name == AssetPathOf(dir, a)[|dir| + 1..];
    assert b.name == AssetPathOf(dir, b)[|dir| + 1..];
  }

  /** Directory listings name each entry once, so no path is unlinked twice. */
  lemma DeletesEachOnce(script: Script, argv: seq<string>, fs: FileSystem, entries: seq<DirEntry>)
    requires ListsDirectory(script, argv, fs, entries)
    requires DistinctNames(entries)
    ensures var d := Run(script, argv, fs).deleted;
      forall i, j :: 0 <= i < j < |d| ==> d[i] != d[j]
  {
    var s := ReadSettings(script, argv, fs);
    var o := Run(script, argv, fs);
    if o.status == Completed && !s.dryRun {
      var m := fs.files[s.manifestPath].manifest;
      var orphans := Orphans(entries, ManifestAssets(m).value).value;
      assert o.deleted == PathsOf(s.assetsDirectory, orphans);
      SubsequenceDistinct(orphans, entries);
      forall i, j | 0 <= i < j < |o.deleted| ensures o.deleted[i] != o.deleted[j] {
        if o.deleted[i] == o.deleted[j] {
          PathInjective(s.assetsDirectory, orphans[i], orphans[j]);
        }
      }
    }
  }

  /** Picking entries in order from a listing with distinct names keeps the
      names distinct. */
  lemma {:induction false} SubsequenceDistinct(a: seq<DirEntry>, b: seq<DirEntry>)
    requires IsSubsequence(a, b)
    requires forall i, j :: 0 <= i < j < |b| ==> b[i].name != b[j].name
    ensures forall i, j :: 0 <= i < j < |a| ==> a[i].name != a[j].name
    decreases |b|
  {
    if |a| > 0 {
      assert |b| > 0;
      forall i, j | 0 <= i < j < |b[1..]| ensures b[1..][i].name != b[1..][j].name {
        assert b[1..][i] == b[i + 1] && b[1..][j] == b[j + 1];
      }
      if a[0] == b[0] && IsSubsequence(a[1..], b[1..]) {
        SubsequenceDistinct(a[1..], b[1..]);
        SubsequenceMembers(a[1..], b[1..]);
        forall j | 0 < j < |a| ensures a[0].name != a[j].name {
          assert a[j] == a[1..][j - 1];
          var k :| 0 <= k < |b[1..]| && b[1..][k] == a[j];
          assert b[k + 1] == a[j];
        }
        forall i, j | 0 < i < j < |a| ensures a[i].name != a[j].name {
          assert a[i] == a[1..][i - 1] && a[j] == a[1..][j - 1];
        }
      } else {
        SubsequenceDistinct(a, b[1..]);
      }
    }
  }

  /** Every element of a subsequence occurs in the sequence. */
  lemma {:induction false} SubsequenceMembers<T>(a: seq<T>, b: seq<T>)
    requires IsSubsequence(a, b)
    ensures forall i :: 0 <= i < |a| ==> exists k :: 0 <= k < |b| && b[k] == a[i]
    decreases |b|
  {
    if |a| > 0 {
      if a[0] == b[0] && IsSubsequence(a[1..], b[1..]) {
        SubsequenceMembers(a[1..], b[1..]);
        forall i | 0 < i < |a| ensures exists k :: 0 <= k < |b| && b[k] == a[i] {
          assert a[i] == a[1..][i - 1];
          var k :| 0 <= k < |b[1..]| && b[1..][k] == a[i];
          assert b[k + 1] == a[i];
        }
        assert b[0] == a[0];
      } else {
        SubsequenceMembers(a, b[1..]);
        forall i | 0 <= i < |a| ensures exists k :: 0 <= k < |b| && b[k] == a[i] {
          var k :| 0 <= k < |b[1..]| && b[1..][k] == a[i];
          assert b[k + 1] == a[i];
        }
      }
    }
  }

  /** `clear` and `purge` stop with status 1 when `--ssr` is given but the
      manifest is a client manifest, before listing or deleting anything;
      the last line says why. */
  lemma SsrMismatchExits(script: Script, argv: seq<string>, fs: FileSystem, m: Manifest)
    requires script != Clean
    requires HasOption(argv, "ssr") && ReadsManifest(script, argv, fs, m) && !IsSsrManifest(m)
    ensures var o := Run(script, argv, fs);
      && o.status == Exited(1) && o.deleted == []
      && (!HasOption(argv, "quiet") ==> |o.log| == 2 && o.log[1] == MismatchMessage(script))
  {
  }

  /** A run completes when the manifest parses, its assets can be
      read, the directory exists and every file's scan meets only strings. */
  lemma CompletesWhenInputsAreWellFormed(script: Script, argv: seq<string>, fs: FileSystem, m: Manifest, entries: seq<DirEntry>)
    requires ReadsManifest(script, argv, fs, m) && ListsDirectory(script, argv, fs, entries)
    requires script == Clean || !HasOption(argv, "ssr") || IsSsrManifest(m)
    requires ManifestAssets(m).Success? && AllStrings(ManifestAssets(m).value)
    ensures Run(script, argv, fs).status == Completed
  {
  }

  /** A client manifest of chunks whose `file` fields are strings never
      crashes the scan. */
  lemma ClientManifestAssetsAreFiles(m: Manifest)
    requires !IsSsrManifest(m)
    requires forall i :: 0 <= i < |m| ==> m[i].1.Chunk? && m[i].1.file.AssetPath?
    ensures ManifestAssets(m).Success? && AllStrings(ManifestAssets(m).value)
    ensures forall name :: Referenced(ManifestAssets(m).value, name) <==>
              exists i :: 0 <= i < |m| && EndsWith(m[i].1.file.path, "/" + name)
  {
    var r := ManifestAssets(m).value;
    forall name ensures Referenced(r, name) <==> exists i :: 0 <= i < |m| && EndsWith(m[i].1.file.path, "/" + name) {
      if Referenced(r, name) {
        var i :| 0 <= i < |r| && Names(r[i], name);
        assert EndsWith(m[i].1.file.path, "/" + name);
      }
      if exists i :: 0 <= i < |m| && EndsWith(m[i].1.file.path, "/" + name) {
        var i :| 0 <= i < |m| && EndsWith(m[i].1.file.path, "/" + name);
        assert Names(r[i], name);
      }
    }
  }
}

=== FILE: plugin_config.dfy ===
/** The plugin's own options (`PluginConfig` in src/index.ts) and
    `resolvePluginConfig`, which turns what the user passed to `laravel(...)`
    into a record with every option filled in. */
module PluginConfig {
  import opened Optional
  import opened Strings
  import PosixPath

  /** `string|string[]`: one entry point or several. */
  datatype Entries = Entry(path: string) | EntryList(paths: seq<string>)

  /** Options forwarded untouched to vite-plugin-full-reload. */
  datatype ReloadOptions = ReloadOptions(root: Option<string>, delay: Option<nat>, always: Option<bool>)

  /** `{ paths, config? }` */
  datatype RefreshConfig = RefreshConfig(paths: seq<string>, options: Option<ReloadOptions>)

  /** `boolean|string|string[]|RefreshConfig|RefreshConfig[]` */
  datatype Refresh =
    | RefreshFlag(on: bool)
    | RefreshPath(path: string)
    | RefreshPaths(paths: seq<string>)
    | RefreshOne(config: RefreshConfig)
    | RefreshMany(configs: seq<RefreshConfig>)

  /** `valetTls: string|boolean` */
  datatype ValetTls = ValetTlsFlag(on: bool) | ValetTlsHost(host: string)

  /** `(code, url) => string`, run on served modules. */
  type Transform = (string, string) -> string

  /** An options object as the user wrote it; `None` is an absent key. */
  datatype PluginOptions = PluginOptions(
    input: Option<Entries>,
    publicDirectory: Option<string>,
    buildDirectory: Option<string>,
    hotFile: Option<string>,
    ssr: Option<Entries>,
    ssrOutputDirectory: Option<string>,
    refresh: Option<Refresh>,
    valetTls: Option<ValetTls>,
    transformOnServe: Option<Transform>)

  /** The argument of `laravel(...)`: `undefined`, entry point(s), or options. */
  datatype UserPluginConfig = Missing | Shorthand(entries: Entries) | Options(options: PluginOptions)

  /** `Required<PluginConfig>`: every option has a value. */
  datatype ResolvedPluginConfig = ResolvedPluginConfig(
    input: Entries,
    publicDirectory: string,
    buildDirectory: string,
    ssr: Entries,
    ssrOutputDirectory: string,
    refresh: Refresh,
    hotFile: string,
    valetTls: ValetTls,
    transformOnServe: Transform)

  datatype ConfigError =
    | MissingConfiguration
    | MissingInput
    | PublicDirectoryNotSubdirectory
    | BuildDirectoryNotSubdirectory

  const PackagePrefix := "laravel-vite-plugin: "

  /** The text of the error thrown, under the package's own prefix. */
  function Message(e: ConfigError): (r: string)
    ensures StartsWith(r, PackagePrefix)
  {
    var text := match e
      case MissingConfiguration => "missing configuration."
      case MissingInput => "missing configuration for \"input\"."
      case PublicDirectoryNotSubdirectory => "publicDirectory must be a subdirectory. E.g. 'public'."
      case BuildDirectoryNotSubdirectory => "buildDirectory must be a subdirectory. E.g. 'build'.";
    Framed(PackagePrefix, text, "");
    assert PackagePrefix + text + "" == PackagePrefix + text;
    PackagePrefix + text
  }


  /** The paths watched when `refresh` is `true`. */
  const RefreshPathsDefault: seq<string> :=
    ["app/View/Components/**", "resources/views/**", "resources/lang/**", "lang/**", "routes/**"]

  const PublicDirectoryDefault := "public"
  const BuildDirectoryDefault := "build"
  const SsrOutputDirectoryDefault := "bootstrap/ssr"

  function Identity(code: string, url: string): string { code }

  /** `trim()` then `replace(/^\/+/, '')`, as applied to `publicDirectory`:
      the trimmed text minus its leading slashes, trailing ones kept. */
  function NormalizePublicDirectory(s: string): (r: string)
    ensures |r| > 0 ==> r[0] != '/'
    ensures EndsWith(Trim(s), r) && forall i :: 0 <= i < |Trim(s)| - |r| ==> Trim(s)[i] == '/'
  {
    StripLeadingSlashes(Trim(s))
  }

  /** `trim()` then strip leading and trailing slashes, as applied to
      `buildDirectory` and `ssrOutputDirectory`. */
  function NormalizeDirectory(s: string): (r: string)
    ensures |r| > 0 ==> r[0] != '/' && r[|r| - 1] != '/'
    ensures exists k :: FramedBy(Trim(s), r, k, IsSlash)
  {
    StripSlashes(Trim(s))
  }

  /** A directory already in normal form is kept as written. */
  lemma NormalizeIdle(s: string)
    requires |s| > 0 && !IsJsWhitespace(s[0]) && !IsJsWhitespace(s[|s| - 1])
    requires s[0] != '/' && s[|s| - 1] != '/'
    ensures NormalizePublicDirectory(s) == s
    ensures NormalizeDirectory(s) == s
  {
    TrimIdle(s);
    assert RunEnd(s, IsSlash, 0) == 0;
    assert RunStart(s, IsSlash, 0, |s|) == |s|;
  }

  /** What every resolved configuration satisfies. */
  predicate WellFormed(c: ResolvedPluginConfig) {
    && |c.publicDirectory| > 0 && c.publicDirectory[0] != '/'
    && |c.buildDirectory| > 0 && c.buildDirectory[0] != '/' && c.buildDirectory[|c.buildDirectory| - 1] != '/'
    && (|c.ssrOutputDirectory| > 0 ==>
          c.ssrOutputDirectory[0] != '/' && c.ssrOutputDirectory[|c.ssrOutputDirectory| - 1] != '/')
    && c.refresh != RefreshFlag(true)
  }

  /** The public directory the resolver keeps: the normalised user value or
      the default. */
  function ChosenPublicDirectory(o: PluginOptions): string {
    if o.publicDirectory.Some? then NormalizePublicDirectory(o.publicDirectory.value) else PublicDirectoryDefault
  }

  function ChosenBuildDirectory(o: PluginOptions): string {
    if o.buildDirectory.Some? then NormalizeDirectory(o.buildDirectory.value) else BuildDirectoryDefault
  }

  function ChosenSsrOutputDirectory(o: PluginOptions): string {
    if o.ssrOutputDirectory.Some? then NormalizeDirectory(o.ssrOutputDirectory.value) else SsrOutputDirectoryDefault
  }

  /** `refresh: true` becomes one watch entry over the default paths. */
  function ExpandRefresh(refresh: Option<Refresh>): (r: Refresh)
    ensures r != RefreshFlag(true)
    ensures refresh.None? ==> r == RefreshFlag(false)
    ensures refresh.Some? && refresh.value != RefreshFlag(true) ==> r == refresh.value
  {
    match refresh
    case None => RefreshFlag(false)
    case Some(RefreshFlag(true)) => RefreshMany([RefreshConfig(RefreshPathsDefault, None)])
    case Some(v) => v
  }

  /** The shorthand forms stand for `{ input: x, ssr: x }`. */
  function ShorthandOptions(e: Entries): PluginOptions {
    PluginOptions(Some(e), None, None, None, Some(e), None, None, None, None)
  }

  /** `resolvePluginConfig` */
  function ResolvePluginConfig(config: UserPluginConfig): (r: Result<ResolvedPluginConfig, ConfigError>)
    ensures config.Missing? <==> (r.Failure? && r.error == MissingConfiguration)
    ensures config.Shorthand? ==> r.Success? && r.value.input == config.entries && r.value.ssr == config.entries
    ensures config.Options? ==>
              ((r.Failure? && r.error == MissingInput) <==> config.options.input.None?)
    ensures config.Options? && config.options.input.Some? ==>
              ((r.Failure? && r.error == PublicDirectoryNotSubdirectory)
               <==> ChosenPublicDirectory(config.options) == "")
    ensures config.Options? && config.options.input.Some? && ChosenPublicDirectory(config.options) != "" ==>
              (r.Failure? <==> ChosenBuildDirectory(config.options) == "")
    ensures r.Success? ==> WellFormed(r.value)
  {
    match config
    case Missing => Failure(MissingConfiguration)
    case Shorthand(e) => ResolveOptions(ShorthandOptions(e))
    case Options(o) => ResolveOptions(o)
  }

  /** The options-object branch of `resolvePluginConfig`. */
  function ResolveOptions(o: PluginOptions): (r: Result<ResolvedPluginConfig, ConfigError>)
    ensures r.Failure? ==> r.error != MissingConfiguration
    ensures r.Success? ==> WellFormed(r.value)
  {
    if o.input.None? then Failure(MissingInput)
    else if ChosenPublicDirectory(o) == "" then Failure(PublicDirectoryNotSubdirectory)
    else if ChosenBuildDirectory(o) == "" then Failure(BuildDirectoryNotSubdirectory)
    else
      var publicDirectory := ChosenPublicDirectory(o);
      Success(ResolvedPluginConfig(
        input := o.input.value,
        publicDirectory := publicDirectory,
        buildDirectory := ChosenBuildDirectory(o),
        ssr := o.ssr.OrElse(o.input.value),
        ssrOutputDirectory := ChosenSsrOutputDirectory(o),
        refresh := ExpandRefresh(o.refresh),
        hotFile := o.hotFile.OrElse(PosixPath.Join(publicDirectory, "hot")),
        valetTls := o.valetTls.OrElse(ValetTlsFlag(false)),
        transformOnServe := o.transformOnServe.OrElse(Identity)))
  }

  /** Options with an entry and non-empty directories resolve; values the
      user supplied survive resolution and every absent one takes its
      documented default. */
  lemma ResolveFillsDefaults(o: PluginOptions)
    requires o.input.Some?
    requires ChosenPublicDirectory(o) != "" && ChosenBuildDirectory(o) != ""
    ensures ResolveOptions(o).Success?
    ensures var c := ResolveOptions(o).value;
      && c.input == o.input.value
      && c.ssr == (if o.ssr.Some? then o.ssr.value else o.input.value)
      && c.publicDirectory == (if o.publicDirectory.None? then "public" else NormalizePublicDirectory(o.publicDirectory.value))
      && c.buildDirectory == (if o.buildDirectory.None? then "build" else NormalizeDirectory(o.buildDirectory.value))
      && c.ssrOutputDirectory == (if o.ssrOutputDirectory.None? then "bootstrap/ssr" else NormalizeDirectory(o.ssrOutputDirectory.value))
      && c.hotFile == (if o.hotFile.Some? then o.hotFile.value else c.publicDirectory + "/hot")
      && c.valetTls == (if o.valetTls.Some? then o.valetTls.value else ValetTlsFlag(false))
      && (o.refresh.None? ==> c.refresh == RefreshFlag(false))
      && (o.refresh == Some(RefreshFlag(true)) ==> c.refresh == RefreshMany([RefreshConfig(RefreshPathsDefault, None)]))
      && (o.transformOnServe.Some? ==> c.transformOnServe == o.transformOnServe.value)
      && (o.transformOnServe.None? ==> forall code, url :: c.transformOnServe(code, url) == code)
  {
  }

  /** A bare string or list resolves with every default, whatever the string. */
  lemma ResolveShorthand(e: Entries)
    ensures var r := ResolvePluginConfig(Shorthand(e));
      && r.Success?
      && r.value.input == e && r.value.ssr == e
      && r.value.publicDirectory == "public" && r.value.buildDirectory == "build"
      && r.value.ssrOutputDirectory == "bootstrap/ssr" && r.value.hotFile == "public/hot"
      && r.value.refresh == RefreshFlag(false) && r.value.valetTls == ValetTlsFlag(false)
  {
  }

  /** An SSR output directory that normalises to the empty string is kept,
      unlike an empty public or build directory. */
  lemma EmptySsrOutputDirectoryAccepted(e: Entries)
    ensures var r := ResolvePluginConfig(Options(PluginOptions(Some(e), None, None, None, None, Some(" / "), None, None, None)));
      r.Success? && r.value.ssrOutputDirectory == ""
  {
  }
}

=== FILE: posix_path.dfy ===
/** The two POSIX path helpers the plugin and the scripts call: `dirname`,
    following Node's algorithm for POSIX paths, and a plain separator join
    standing in for `path.join`. */
module PosixPath {

  /** Index of the separator that ends the directory part of `p`, scanning
      from `i` down to 1 (`-1` when there is none). `matchedSlash` stays
      true while only trailing separators have been seen. */
  function DirnameEnd(p: string, i: int, matchedSlash: bool): (end: int)
    requires i < |p|
    ensures end == -1 || (1 <= end <= i && p[end] == '/')
    decreases i
  {
    if i < 1 then -1
    else if p[i] == '/' then (if !matchedSlash then i else DirnameEnd(p, i - 1, true))
    else DirnameEnd(p, i - 1, false)
  }

  /** `path.posix.dirname(p)` */
  function Dirname(p: string): (r: string)
  {
    if |p| == 0 then "."
    else
      var hasRoot := p[0] == '/';
      var end := DirnameEnd(p, |p| - 1, true);
      if end == -1 then (if hasRoot then "/" else ".")
      else if hasRoot && end == 1 then "//"
      else p[..end]
  }

  /** The scan walks over a final name without separators and stops at the
      separator just before it. */
  lemma {:induction false} DirnameEndOverName(p: string, i: int, start: nat, matchedSlash: bool)
    requires 1 <= start < |p| && p[start] == '/'
    requires start < i < |p|
    requires forall j :: start < j <= i ==> p[j] != '/'
    requires !matchedSlash || i == |p| - 1
    ensures DirnameEnd(p, i, matchedSlash) == start
    decreases i
  {
    if i - 1 > start {
      DirnameEndOverName(p, i - 1, start, false);
    }
  }

  /** The parent of `dir/name` is `dir` when `name` is a single non-empty
      segment and `dir` does not end in a separator. */
  lemma DirnameOfChild(dir: string, name: string)
    requires |dir| > 0 && dir[|dir| - 1] != '/'
    requires |name| > 0 && forall j :: 0 <= j < |name| ==> name[j] != '/'
    ensures Dirname(dir + "/" + name) == dir
  {
    var p := dir + "/" + name;
    var start := |dir|;
    forall j | start < j <= |p| - 1 ensures p[j] != '/' {
      assert p[j] == name[j - start - 1];
    }
    DirnameEndOverName(p, |p| - 1, start, true);
    assert p[..start] == dir;
  }

  /** `path.join(a, b)` for the relative, already normalised segments the
      plugin joins: the two parts with one separator between them. */
  function Join(a: string, b: string): (r: string)
    ensures |r| == |a| + 1 + |b|
    ensures r[..|a|] == a && r[|a|] == '/' && r[|a| + 1..] == b
    ensures (|a| > 0 && a[|a| - 1] != '/' && |b| > 0 && forall j :: 0 <= j < |b| ==> b[j] != '/')
            ==> Dirname(r) == a
  {
    if |a| > 0 && a[|a| - 1] != '/' && |b| > 0 && forall j :: 0 <= j < |b| ==> b[j] != '/' then
      DirnameOfChild(a, b);
      a + "/" + b
    else
      a + "/" + b
  }
}

=== FILE: strings.dfy ===
/** The string operations the plugin and the scripts rely on: JavaScript's
    `startsWith`/`endsWith`/`trim`, the slash-stripping regular expressions
    `/^\/+/` and `/\/+$/`, decimal rendering of numbers, and the global
    `replace` of a literal token. */
module Strings {

  /** `s.startsWith(p)` */
  predicate StartsWith(s: string, p: string) {
    |p| <= |s| && s[..|p|] == p
  }

  /** `s.endsWith(p)` */
  predicate EndsWith(s: string, p: string) {
    |p| <= |s| && s[|s| - |p|..] == p
  }
  /** `a + b + c` starts with `a` and ends with `c`. */
  lemma Framed(a: string, b: string, c: string)
    ensures StartsWith(a + b + c, a) && EndsWith(a + b + c, c)
  {
    var s := a + b + c;
    assert s[..|a|] == a;
    assert s[|s| - |c|..] == c;
  }


  /** The characters `String.prototype.trim` removes: ECMAScript WhiteSpace
      and LineTerminator code points. */
  predicate IsJsWhitespace(c: char) {
    c in JsWhitespace
  }

  const JsWhitespace: set<char> := {
    '\t', '\n', '\U{000B}', '\U{000C}', '\r', ' ', '\U{00A0}', '\U{1680}',
    '\U{2000}', '\U{2001}', '\U{2002}', '\U{2003}', '\U{2004}', '\U{2005}',
    '\U{2006}', '\U{2007}', '\U{2008}', '\U{2009}', '\U{200A}',
    '\U{2028}', '\U{2029}', '\U{202F}', '\U{205F}', '\U{3000}', '\U{FEFF}'
  }

  /** The end of the run of `drop` characters that starts at the beginning
      of `s`, searched from `i` onwards. */
  function RunEnd(s: string, drop: char -> bool, i: nat): (k: nat)
    requires i <= |s|
    requires forall j :: 0 <= j < i ==> drop(s[j])
    ensures i <= k <= |s|
    ensures forall j :: 0 <= j < k ==> drop(s[j])
    ensures k < |s| ==> !drop(s[k])
    decreases |s| - i
  {
    if i < |s| && drop(s[i]) then RunEnd(s, drop, i + 1) else i
  }

  /** The start of the run of `drop` characters that ends `s`, searched from
      `e` downwards and never below `lo`. */
  function RunStart(s: string, drop: char -> bool, lo: nat, e: nat): (m: nat)
    requires lo <= e <= |s|
    requires forall j :: e <= j < |s| ==> drop(s[j])
    ensures lo <= m <= e
    ensures forall j :: m <= j < |s| ==> drop(s[j])
    ensures m > lo ==> !drop(s[m - 1])
    decreases e
  {
    if e > lo && drop(s[e - 1]) then RunStart(s, drop, lo, e - 1) else e
  }

  /** `r` sits at offset `k` of `s`, and every character around it
      satisfies `drop`. */
  predicate FramedBy(s: string, r: string, k: int, drop: char -> bool) {
    && 0 <= k && k + |r| <= |s| && s[k..k + |r|] == r
    && (forall i :: 0 <= i < k ==> drop(s[i]))
    && (forall i :: k + |r| <= i < |s| ==> drop(s[i]))
  }

  /** Removes the longest prefix and then the longest suffix of `drop`
      characters. */
  function StripBoth(s: string, drop: char -> bool): (r: string)
    ensures |r| > 0 ==> !drop(r[0]) && !drop(r[|r| - 1])
    ensures FramedBy(s, r, RunEnd(s, drop, 0), drop)
  {
    var k := RunEnd(s, drop, 0);
    s[k..RunStart(s, drop, k, |s|)]
  }

  /** `s.trim()` */
  function Trim(s: string): (r: string)
    ensures |r| > 0 ==> !IsJsWhitespace(r[0]) && !IsJsWhitespace(r[|r| - 1])
    ensures exists k :: FramedBy(s, r, k, IsJsWhitespace)
  {
    StripBoth(s, IsJsWhitespace)
  }

  /** Trimming is a no-op on a string with nothing to trim. */
  lemma TrimIdle(s: string)
    requires |s| > 0 ==> !IsJsWhitespace(s[0]) && !IsJsWhitespace(s[|s| - 1])
    ensures Trim(s) == s
  {
    assert RunEnd(s, IsJsWhitespace, 0) == 0;
    assert RunStart(s, IsJsWhitespace, 0, |s|) == |s|;
  }

  predicate IsSlash(c: char) { c == '/' }

  /** `s.replace(/^\/+/, '')` */
  function StripLeadingSlashes(s: string): (r: string)
    ensures |r| <= |s| && r == s[|s| - |r|..]
    ensures forall i :: 0 <= i < |s| - |r| ==> s[i] == '/'
    ensures |r| > 0 ==> r[0] != '/'
  {
    s[RunEnd(s, IsSlash, 0)..]
  }

  /** `s.replace(/^\/+/, '').replace(/\/+$/, '')`: the slashes at both ends
      removed. */
  function StripSlashes(s: string): (r: string)
    ensures |r| > 0 ==> r[0] != '/' && r[|r| - 1] != '/'
    ensures exists k :: FramedBy(s, r, k, IsSlash)
  {
    StripBoth(s, IsSlash)
  }

  predicate IsDigit(c: char) { '0' <= c <= '9' }

  function DigitChar(d: nat): (c: char)
    requires d < 10
    ensures IsDigit(c)
  {
    "0123456789"[d]
  }

  function DigitValue(c: char): (d: nat)
    requires IsDigit(c)
    ensures d < 10 && DigitChar(d) == c
  {
    (c as int - '0' as int)
  }

  /** The decimal text of a number, as a template literal renders it. */
  function NatToString(n: nat): (r: string)
    ensures |r| > 0
    ensures forall i :: 0 <= i < |r| ==> IsDigit(r[i])
    ensures r[0] == '0' ==> n == 0 && r == "0"
  {
    if n < 10 then [DigitChar(n)] else NatToString(n / 10) + [DigitChar(n % 10)]
  }

  /** Reads a string of decimal digits back as a number. */
  function ParseDecimal(s: string): (n: nat)
    requires forall i :: 0 <= i < |s| ==> IsDigit(s[i])
  {
    if |s| == 0 then 0 else 10 * ParseDecimal(s[..|s| - 1]) + DigitValue(s[|s| - 1])
  }

  /** Rendering a number in decimal loses nothing: parsing gives it back. */
  lemma {:induction false} ParseNatToString(n: nat)
    ensures ParseDecimal(NatToString(n)) == n
  {
    var r := NatToString(n);
    if n < 10 {
      assert r[..0] == [];
    } else {
      var q := NatToString(n / 10);
      assert r[..|r| - 1] == q;
      ParseNatToString(n / 10);
    }
  }

  /** Distinct numbers render differently. */
  lemma NatToStringInjective(m: nat, n: nat)
    requires NatToString(m) == NatToString(n)
    ensures m == n
  {
    ParseNatToString(m);
    ParseNatToString(n);
  }

  /** `pat` occurs in `s` starting at index `i`. */
  predicate OccursAt(s: string, pat: string, i: nat) {
    i + |pat| <= |s| && s[i..i + |pat|] == pat
  }

  /** `s` contains no occurrence of `pat`. */
  predicate Free(s: string, pat: string) {
    forall i: nat :: i + |pat| <= |s| ==> !OccursAt(s, pat, i)
  }

  /** `s.replace(/pat/g, rep)` for a literal pattern with no special
      characters: occurrences are found leftmost first and do not overlap. */
  function ReplaceAll(s: string, pat: string, rep: string): (r: string)
    requires |pat| > 0
    decreases |s|
  {
    if |s| < |pat| then s
    else if s[..|pat|] == pat then rep + ReplaceAll(s[|pat|..], pat, rep)
    else [s[0]] + ReplaceAll(s[1..], pat, rep)
  }

  /** Code without the token comes back unchanged. */
  lemma {:induction false} ReplaceAllFree(s: string, pat: string, rep: string)
    requires |pat| > 0
    requires Free(s, pat)
    ensures ReplaceAll(s, pat, rep) == s
    decreases |s|
  {
    if |s| >= |pat| {
      assert !OccursAt(s, pat, 0);
      assert Free(s[1..], pat) by {
        forall i: nat | i + |pat| <= |s[1..]| ensures !OccursAt(s[1..], pat, i) {
          assert !OccursAt(s, pat, i + 1);
          assert s[1..][i..i + |pat|] == s[i + 1..i + 1 + |pat|];
        }
      }
      ReplaceAllFree(s[1..], pat, rep);
      assert s == [s[0]] + s[1..];
    }
  }

  /** The leftmost occurrence is replaced by `rep` and the scan resumes right
      after it: `a` is copied through when the token does not start inside it. */
  lemma {:induction false} ReplaceAllLeftmost(a: string, pat: string, rep: string, b: string)
    requires |pat| > 0
    requires forall i: nat :: i < |a| ==> !OccursAt(a + pat + b, pat, i)
    ensures ReplaceAll(a + pat + b, pat, rep) == a + rep + ReplaceAll(b, pat, rep)
    decreases |a|
  {
    var s := a + pat + b;
    if |a| == 0 {
      assert s == pat + b;
      assert s[..|pat|] == pat;
      assert s[|pat|..] == b;
    } else {
      assert !OccursAt(s, pat, 0);
      assert s[..|pat|] != pat;
      var a' := a[1..];
      var s1 := s[1..];
      assert s1 == a' + pat + b;
      forall i: nat | i < |a'| ensures !OccursAt(s1, pat, i) {
        assert !OccursAt(s, pat, i + 1);
        assert s1[i..i + |pat|] == s[i + 1..i + 1 + |pat|];
      }
      ReplaceAllLeftmost(a', pat, rep, b);
      assert ReplaceAll(s, pat, rep) == [s[0]] + ReplaceAll(s1, pat, rep);
      assert a == [a[0]] + a';
    }
  }
}
